=== FILE: README.md ===
# BBCodeParser: a verified model of the FluxBB BBCode syntax-tree builder

This project models `BBCodeParser` from `include/parser2.php`, the BBCode
parser of a FluxBB fork, together with the pure rendering rules beside it.

**The parser.** `buildSyntaxTree` trims a forum message and scans it once,
left to right:

- `parse_text` gathers characters into a pending buffer.
- `parse_tag` reads a `[name` and an optional `=attribute` (`parse_attr`).
- The head is checked against the static tag tables (`is_valid_tag`, `is_valid_attr`).
- A head that does not form a tag goes back into the tree as literal text. That is not an error.
- An accepted tag parses its body in its own context, which ends at its close tag (`matches_close_tag`).
- Inside `code` no tag is opened.
- Reaching the end of input inside a tag records `missing close tag: [/tag]`.
- `dump_node`, `dump_string` and `dump_string_buffer` add nodes to the tree. Empty nodes are dropped, and text that follows text is merged into it.

**The renderer.** It turns a tree into HTML:

- `generate_code` and `generate_node_code`;
- the fixed open and close HTML of the simple tags (`generate_open_tag`, `generate_close_tag`);
- list boxes (`generate_list_tag`) and code boxes (`generate_code_tag`, `node_interior_as_text`);
- the two URL helpers `prepend_protocol` and `safe_truncate_url`.

**How the model is built**

- The parser's static fields (`$i`, `$limit`, `$chars`, `$string_buffer`) are the fields of a class, `Parser.BBCodeParser`.
- Its methods keep the source's loops. They take the tree and the error list in, and hand them back out.
- Each parsing method is proved to compute exactly a ghost function of the input and the scanner state:
  - `Scan.ScanText` for `parse_text`;
  - `Scan.ScanTag` for `parse_tag`;
  - `Scan.OpenTag` for the body of an accepted tag.
- Besides the tree, errors and cursor, these functions build a record (`RawTree.RawNode`) of everything consumed:
  - the text runs;
  - the refunded heads;
  - the opened tags, each with its close tag as it stood in the input.
- The lemmas in `Scan` prove three things about the record:
  - it unparses to the consumed input, character for character;
  - folded through `dump_node`, it gives the tree;
  - every tag in it passed the checks.
- Errors are only ever appended, and a parse from the start adds none exactly when it stops at the end of input.

**Behaviour of the source worth noting**

- A tag node keeps its name as typed, because `new SyntaxTreeTagNode($tag, ...)` stores it without lower-casing. Only the lookups lower-case it.
- There is no nesting, depth or content validation. The file has only a TODO at that point.
- Every enclosing context records its own "missing close tag" error, so a parse can report more than one.
- After an unclosed inner tag the cursor is still moved on by `strlen($tag) + 3`. So it can pass the end of input.

## Model

| member | source | states |
|---|---|---|
| Catalog.IsValidTagCases | include/parser2.php:488-493 | with `=` a name is valid exactly when it may carry an attribute; without, exactly when it is known and does not require one |
| Catalog.IsValidAttrCases | include/parser2.php:495-498 | any attribute is valid on a tag other than `list`; on a `list`, in any letter case, exactly `1`, `a` and `*` are |
| Catalog.EqualsIgnoreCaseMeans | include/parser2.php:482-485 | two strings are equal up to case exactly when they have the same length and, place by place, the same letters up to case |
| Lexer.MatchesCloseTagMeans | include/parser2.php:481-486 | the expected close tag matches at the cursor exactly when it fits before the end and each of its characters equals the input's at its place, up to case |
| Lexer.CloseTagOf | include/parser2.php:394 | the close tag of a context is `[/` + context + `]`, three characters longer, starting with `[` |
| Lexer.NameEnd | include/parser2.php:422-424 | the tag-name loop stops within the input, at or after where it started |
| Lexer.NameEndMaximal | include/parser2.php:422-424 | every character it passes is a letter or `*`, and the one it stops on is not |
| Lexer.ScanUntil | include/parser2.php:470-473 | the attribute loop stops within the input |
| Lexer.ScanUntilStops | include/parser2.php:470-473 | it stops at the first terminal or newline and passes neither |
| Lexer.AttrEnd | include/parser2.php:455-479 | an attribute ends within the input, and a quoted one is at least its quote |
| Lexer.AttrEndExtent | include/parser2.php:464-476 | a quoted attribute either ends with its closing quote, with neither that quote nor a newline between, or runs to a newline or the end with neither; an unquoted one holds neither `]` nor a newline and stops at one of them or at the end |
| Lexer.HeadEnd | include/parser2.php:425-440 | the head `[name=attr` read at k ends after k and within the input |
| SyntaxTree.DumpNode | include/parser2.php:507-522 | appending keeps the tree's text and adds exactly the node's text, and adds at most one node |
| SyntaxTree.DumpNodeKeepsShape | include/parser2.php:507-522 | the tree keeps its shape: no empty text node, no tag without children, no two text nodes side by side |
| SyntaxTree.DumpNodeKeepsTagsOk | include/parser2.php:507-522 | every tag of the tree still passes the checks, and no node but the last is changed |
| SyntaxTree.DumpString | include/parser2.php:524-527 | the tree's text grows by exactly the string |
| SyntaxTree.DumpNodeAsWritten | include/parser2.php:507-522 | as written, the appended text is lost when it is `0` |
| SyntaxTree.DumpNodeAsWrittenDropsZero | include/parser2.php:509-510 | on `[b]x[/b]0` the as-written append drops the `0`, and the corrected one keeps it |
| RawTree.NormalizeKeepsShape | include/parser2.php:445-447 | folding a record through `dump_node`, children first, keeps the tree's shape at every depth |
| RawTree.NormalizeNodeShape | include/parser2.php:445-447 | a tag node built from a record has well-formed children |
| RawTree.NormalizeKeepsText | include/parser2.php:507-535 | folding a record loses no text: the tree's text grows by the record's text items, in order |
| RawTree.NormalizeNodeText | include/parser2.php:445-447 | a node built from a record holds exactly the record's text |
| RawTree.NormalizeAllText | include/parser2.php:512-515 | a record of text only, folded into at most one text node, leaves one text node holding all of it |
| RawTree.DumpTextTree | include/parser2.php:512-515 | text appended to a tree of at most one text node is merged into it |
| RawTree.AllTextUnparse | include/parser2.php:409-410 | a record of text only unparses to its text |
| RawTree.NormalizeKeepsTagsOk | include/parser2.php:445-447 | folding a record whose tags passed the checks gives a tree whose tags pass them, with every `code` node holding one text node |
| RawTree.NormalizeNodeTagsOk | include/parser2.php:445-447 | the same for one node |
| Scan.Flush | include/parser2.php:529-535 | flushing the buffer adds exactly the pending characters to the tree's text |
| Scan.FlushRecord | include/parser2.php:529-535 | a flush records the pending text and nothing else, and folding that record gives the flushed tree |
| Scan.ScanText | include/parser2.php:393-416 | the cursor never moves back |
| Scan.ScanTag | include/parser2.php:418-453 | the cursor moves past the `[` |
| Scan.OpenTag | include/parser2.php:442-450 | the cursor moves past the `]` |
| Scan.HeadNameText | include/parser2.php:420-425 | `[` + the name read is exactly the input it stands on |
| Scan.HeadText | include/parser2.php:420-440 | `[` + name + `=` + attribute, quotes included, is exactly the input it stands on |
| Scan.TagRecord | include/parser2.php:442-450 | an opened tag stands for its head, its body and its close tag as it stood in the input |
| Scan.CloseReadMatches | include/parser2.php:481-486 | what ends a body is the tag's own close tag in some letter case, or the end of input |
| Scan.CloseTagNeedsBracket | include/parser2.php:400-407 | a close tag cannot match at a character other than `[`, nor within two characters of the end |
| Scan.ScanTextTree | include/parser2.php:393-416 | the tree `parse_text` leaves is its record folded through `dump_node` |
| Scan.ScanTagTree | include/parser2.php:418-453 | the tree `parse_tag` leaves is its record appended with `dump_node` |
| Scan.OpenTagTree | include/parser2.php:442-450 | the same for an opened tag |
| Scan.ScanTextValid | include/parser2.php:393-416 | every tag `parse_text` opened passed the checks, a `code` body holds only text, and every consumed close tag is the tag's own |
| Scan.ScanTagValid | include/parser2.php:418-453 | the same for one `parse_tag` |
| Scan.OpenTagValid | include/parser2.php:442-450 | the same for an opened tag |
| Scan.ScanTextUnparse | include/parser2.php:393-416 | the record unparses to exactly the input consumed, from the first pending character to where the cursor stops |
| Scan.TagStepUnparse | include/parser2.php:400-404 | the same across a step that hands a `[` to `parse_tag` |
| Scan.ScanTagUnparse | include/parser2.php:418-453 | a tag, opened or refunded, stands for exactly the input it consumed |
| Scan.OpenTagUnparse | include/parser2.php:442-450 | the same for an opened tag |
| Scan.ScanTextErrors | include/parser2.php:393-416 | errors are only appended; the scan stops before the end only in front of its context's close tag, with no error added; at the end a context records its missing close tag last; with no context, no error is added exactly when the cursor stops at the end |
| Scan.TagStepErrors | include/parser2.php:400-404 | the same across a step that hands a `[` to `parse_tag` |
| Scan.ScanTagErrors | include/parser2.php:418-453 | `parse_tag` only appends errors, and appends some exactly when the cursor passes the end of input |
| Scan.OpenTagErrors | include/parser2.php:442-450 | the same for an opened tag |
| Scan.ScanTagOpens | include/parser2.php:418-440 | `parse_tag` opens a tag exactly when the head passes `is_valid_tag` and `is_valid_attr` and `]` follows it, with the name and attribute read there; otherwise the head comes back as text, with no error, and the cursor after it |
| Scan.ScanTextPreformatted | include/parser2.php:394-408 | inside `code` the record is text only, and no close tag of the context starts before the scan stops |
| Scan.ScanTextNoOpens | include/parser2.php:398-411 | where no `[` opens a tag, the record is text only and the cursor stays within the input |
| Scan.TagStepNoOpens | include/parser2.php:400-404 | the same across a step that hands a `[` to `parse_tag` |
| Scan.TagNoOpens | include/parser2.php:427-440 | a `[` that opens no tag is given back as text and the cursor stays within the input |
| Parser.ParseMessage | include/parser2.php:103-108 | a parse from the start only appends errors, and adds none exactly when it reaches the end. Its record unparses to the whole input. Its tree is well formed, its tags pass the checks, and it holds the text in order. A message where no `[` opens a tag gives no error and one text node |
| Parser.BBCodeParser.constructor | include/parser2.php:103-106 | a fresh parser stands at 0 on the input with an empty buffer |
| Parser.BBCodeParser.GetStringBuffer | include/parser2.php:500-505 | returns the pending characters and empties the buffer |
| Parser.BBCodeParser.DumpStringBuffer | include/parser2.php:529-535 | empties the buffer into the tree, whose text grows by exactly the pending characters |
| Parser.BBCodeParser.ParseAttr | include/parser2.php:455-479 | the attribute is exactly the characters passed over, quotes included, and the cursor stops where AttrEnd says |
| Parser.BBCodeParser.ReadAttrBody | include/parser2.php:470-473 | the loop buffers exactly the characters up to the terminal or a newline |
| Parser.BBCodeParser.ParseTagName | include/parser2.php:422-425 | the name is exactly the run of letters and `*`, and the buffer is left empty |
| Parser.BBCodeParser.ParseTagAttr | include/parser2.php:430-434 | the attribute is read only after an `=`, and the cursor ends where the head ends |
| Parser.BBCodeParser.ParseTag | include/parser2.php:418-453 | `parse_tag` computes ScanTag: the same tree, errors and cursor |
| Parser.BBCodeParser.ParseOpenTag | include/parser2.php:442-450 | the body of an accepted tag computes OpenTag |
| Parser.BBCodeParser.ParseText | include/parser2.php:393-416 | `parse_text` computes ScanText: the same tree, errors and cursor |
| Parser.BBCodeParser.BuildSyntaxTree | include/parser2.php:93-108 | without BBCode, `[` or `]`, the tree is the trimmed text as one node. Otherwise errors are only appended and the tree comes back only when there are none; it is then well formed and its tags pass the checks. Text where no `[` opens a tag adds no error |
| Render.SanitizeUrl | include/parser2.php:343 | the cleaned URL holds no space and no quote |
| Render.SanitizeClean | include/parser2.php:343 | a URL with no space and no quote is left as it is |
| Render.SanitizeIdempotent | include/parser2.php:343 | cleaning twice is cleaning once |
| Render.PrependProtocolAsWritten | include/parser2.php:342-358 | as written, the result ends with the cleaned URL |
| Render.PrependProtocolDoublesScheme | include/parser2.php:346-354 | a quoted URL with a scheme gets a second `http://` as written, and is left alone once the rules test the cleaned URL |
| Render.PrependProtocol | include/parser2.php:342-358 | the result ends with the cleaned URL |
| Render.PrependProtocolAgrees | include/parser2.php:342-358 | on a URL with no space and no quote, the written and the corrected rules agree |
| Render.PrependProtocolAbsolute | include/parser2.php:346-355 | every link but an e-mail one comes out with a scheme the test accepts, given such a protocol and base URL |
| Render.SchemeIsNoPrefix | include/parser2.php:346-354 | a URL with a scheme matches none of the `www.`, `ftp.`, `//` and `/` rules |
| Render.PrependProtocolClean | include/parser2.php:342-358 | with a clean protocol and base URL, the result holds no space and no quote |
| Render.PrependProtocolIdempotent | include/parser2.php:342-358 | applying the rules to their own result changes nothing, for every link but an e-mail one, when the protocol is a scheme of 3 to 6 lower-case letters or digits and the base URL starts with such a scheme and `://` and holds no space or quote |
| Render.TruncateUrl | include/parser2.php:201-206 | a URL of at most 55 characters is unchanged; a longer one becomes its first 39 characters, ` … ` and its last 10, 52 in all |
| Render.SafeTruncateUrl | include/parser2.php:201-206 | a URL of at most 55 characters is only escaped; a longer one is escaped after keeping its first 39 and last 10 characters around ` … ` |
| Render.TruncateUrlIdempotent | include/parser2.php:201-206 | shortening a shortened URL changes nothing |
| Render.OpenTagHtml | include/parser2.php:244-278 | a name outside the switch gets nothing; `quote` and `h` close the paragraph first; every other case opens its HTML element |
| Render.CloseTagHtml | include/parser2.php:280-306 | a name outside the switch gets nothing; `quote` and `h` reopen the paragraph last; every other case closes the element its open tag opened |
| Render.QuoteOpensBlock | include/parser2.php:249-255 | a quote, cited or not, closes the paragraph before it |
| Render.BlockPairs | include/parser2.php:244-306 | `quote` and `h` close the paragraph before them and reopen one after their close tag |
| Render.InlinePairs | include/parser2.php:244-306 | every other case opens and closes the same HTML element, whatever its attribute |
| Render.SimpleTagsCovered | include/parser2.php:119-143 | every catalog tag that no renderer of its own takes, except `*`, is a case of the open/close switch |
| Render.NodeInteriorAsText | include/parser2.php:335-340 | the interior is a prefix of the node's text; for a parsed `code` node it is all of it (Render.CodeInteriorIsText) |
| Render.CodeInteriorIsText | include/parser2.php:335-340 | the interior of a `code` node built by the parser is its whole text |
| Render.CountNewlinesIsMultiplicity | include/parser2.php:166 | the line count is the number of newline characters |
| Render.CountNewlinesAppend | include/parser2.php:166 | the line count adds up over concatenation |
| Render.CodeBoxShape | include/parser2.php:163-170 | the box scrolls exactly when the code has more than 28 newlines, and the code stands unchanged before the closing markup |
| Render.CodeBoxIsBlock | include/parser2.php:163-170 | a code box closes the paragraph before it and opens one after it |
| Render.CodeTagHtml | include/parser2.php:163-170 | the code tag is a block; it scrolls exactly when the trimmed, escaped interior has more than 28 newlines, and shows that interior unchanged before the closing markup |
| Render.CodeTagShowsText | include/parser2.php:163-170 | a parsed `code` tag shows its whole text, trimmed and escaped |
| Render.ListTypeName | include/parser2.php:236-241 | each list style is named by one of the values `is_valid_attr` accepts |
| Render.ListKindRoundTrip | include/parser2.php:222-242 | the accepted values `1`, `a`, `*` and the three list styles correspond one to one |
| Render.ListWrapIsBlock | include/parser2.php:236-241 | a list closes the paragraph before it and opens one after it |
| Render.CodeOf | include/parser2.php:111-117 | an empty tree renders as nothing, and a tree of one node as that node's HTML |
| Render.NodeCode | include/parser2.php:119-143 | a `quote`, `h`, `code` or `list` node, in any letter case, renders as a block that closes the paragraph before it and opens one after it |
| Render.ListTagHtml | include/parser2.php:222-242 | a list is a block: it closes the paragraph before it and opens one after it |
| Render.CodeOfAppend | include/parser2.php:111-117 | rendering a tree renders its pieces one after another |
| Render.SimpleTagNodeCode | include/parser2.php:137-140 | a checked tag of the switch renders as its open HTML, its children and its close HTML |
| Render.StarRendersChildren | include/parser2.php:137-140 | a `*` outside a list renders as its children alone |
| Render.GenerateCode | include/parser2.php:111-117 | the loop and `implode` give CodeOf |
| Render.GenerateNodeCode | include/parser2.php:119-143 | the dispatch gives NodeCode |
| Render.GenerateListItem | include/parser2.php:226-232 | one item is `<li><p>`, the item's HTML and `</p></li>`; a `*` item gives its children |
| Render.GenerateListTag | include/parser2.php:222-242 | the loop, `implode` and the style give ListTagHtml |

## Left out

- `pun_trim`, `pun_htmlspecialchars`, `unquote` and `$lang_common['wrote']` are parameters: `trim` of BuildSyntaxTree, and the `Render.Host` fields.
- `generate_text`, `generate_img_tag` and `generate_url_tag` (with `extract_url_interior`, `get_base_url` and `intval`) are also `Render.Host` fields. They depend on configuration, user preferences and helpers that are not part of this model.
- `get_current_protocol()` and `get_base_url(true)` are the `protocol` and `baseUrl` parameters of `prepend_protocol`.
- `$pun_config['p_message_bbcode']` is the `bbcodeEnabled` flag. `$pun_user`, `$pun_config` and `$lang_common` are not modelled otherwise.
- `replace_links`, `replace_smilies` and censoring are not modelled. They are regular-expression passes over the text, inside `generate_text`.
- The `preg_replace` clean-up of `generateHTML` is not modelled. It is a regular-expression pass over the finished HTML.
- The test script at the end of the file is not modelled. It reads files and the command line.
- Strings are sequences of characters. PHP indexes bytes, and `strlen` counts bytes, so multi-byte input is not modelled at the byte level.
- Lower-casing and `strcasecmp` are ASCII only, as PHP 8.2 and later do them. The model does not follow locale-dependent case rules.
- `is_valid_attr` uses a loose `in_array`. PHP's loose comparison of numeric strings (`"01" == "1"`) is not modelled, so the model compares strings exactly.
- SyntaxTree.DumpString: appends the string through the corrected append (SyntaxTree.DumpNode, which drops only empty text; see Findings), so a string that is exactly `0` is kept, where `dump_string` drops it.
- Scan.Flush: flushes the buffer through the corrected append, so a buffered run that is exactly `0` is kept.
- Scan.ScanText: builds its tree with the corrected append, so text that is exactly `0` is kept, and so is a tag whose body it is.
- Scan.ScanTag: builds its tree with the corrected append, so text that is exactly `0` is kept, and so is a tag whose body it is.
- Scan.OpenTag: builds the tag's body with the corrected append, so a body that is exactly `0` is kept, and so is the tag.
- Parser.BBCodeParser.DumpStringBuffer: flushes the buffer through the corrected append, so a buffered run that is exactly `0` is kept.
- Parser.BBCodeParser.ParseText: computes ScanText, on the corrected append, so text that is exactly `0` is kept.
- Parser.BBCodeParser.ParseTag: computes ScanTag, on the corrected append, so text that is exactly `0` is kept.
- Parser.BBCodeParser.ParseOpenTag: computes OpenTag, on the corrected append, so text that is exactly `0` is kept.
- Parser.BBCodeParser.BuildSyntaxTree: builds its tree on the corrected append, so on `[b]0[/b]` it gives the `b` node where the source gives an empty tree.
- Parser.ParseMessage: states its properties of the tree built on the corrected append.
- SyntaxTree.DumpNode: `dump_node` is modelled on values. The in-place extension of `$last->text` through an object reference, and the sharing that comes with it, are not modelled.
- Parser.BBCodeParser: the tree and the error list are passed in and handed back rather than updated through PHP references. A parser object per call replaces the static fields shared between calls.
- Render.Host: the host helpers are arbitrary total functions. Nothing is assumed about escaping or trimming.

## Findings

| source | as written | input that shows it | evidently intended | confidence | as-written member | corrected member |
|---|---|---|---|---|---|---|
| include/parser2.php:509-510 | `empty($node->text)` also holds for the text `0`, so that text is dropped | `[b]x[/b]0`: the trailing `0` never reaches the tree. `[b]0[/b]`: the `0` is dropped, then `b` has no children and is dropped too, so the tree is empty and no error is reported | only empty text is dropped | not executed | SyntaxTree.DumpNodeAsWrittenDropsZero | SyntaxTree.DumpNode |
| include/parser2.php:346-354 | the prefix rules test the URL before the quotes are removed | `[url="http://x.org"]x[/url]` links to `http://http://x.org` | the rules test the cleaned URL | not executed | Render.PrependProtocolDoublesScheme | Render.PrependProtocol |

=== FILE: catalog.dfy ===
/**
 * The static tag tables of BBCodeParser and the checks the parser makes
 * against them: which names are tags, which tags may or must carry an
 * attribute, and which attribute values a `list` accepts.
 */
module Catalog {

  /** Every recognised tag name, lower case. */
  const AllTags: seq<string> := ["quote", "img", "code", "url", "topic", "post", "forum", "user",
                                 "email", "b", "i", "u", "s", "c", "h", "del", "ins", "em", "color",
                                 "colour", "list", "*"]

  /** The tags that may be written `[tag=attr]`. */
  const AttrPermitted: seq<string> := ["quote", "img", "url", "topic", "post", "forum", "user",
                                       "email", "color", "colour", "list"]

  /** The tags that must be written `[tag=attr]`. */
  const AttrRequired: seq<string> := ["color", "colour"]

  /** The attribute values a `list` accepts. */
  const ListTypes: seq<string> := ["1", "a", "*"]

  /** A character that may appear in a tag name: an ASCII letter or `*`. */
  predicate IsTagChar(c: char)
  {
    'a' <= c <= 'z' || 'A' <= c <= 'Z' || c == '*'
  }

  /** ASCII lower-casing of one character, as PHP's strtolower does it. */
  function LowerChar(c: char): char
  {
    if 'A' <= c <= 'Z' then (c as int + 32) as char else c
  }

  function Lower(s: string): string
    decreases |s|
  {
    if s == [] then [] else [LowerChar(s[0])] + Lower(s[1..])
  }

  /** Lower-casing keeps the length and maps the first character. */
  lemma LowerHead(s: string)
    requires s != []
    ensures |Lower(s)| == |s| && Lower(s)[0] == LowerChar(s[0])
  {
  }

  /** Lower-casing works character by character. */
  lemma {:induction false} LowerAt(s: string)
    ensures |Lower(s)| == |s|
    ensures forall j :: 0 <= j < |s| ==> Lower(s)[j] == LowerChar(s[j])
    decreases |s|
  {
    if s != [] {
      LowerAt(s[1..]);
      assert forall j :: 1 <= j < |s| ==> Lower(s)[j] == Lower(s[1..])[j - 1];
    }
  }

  /** `strcasecmp(a, b) === 0`. */
  predicate EqualsIgnoreCase(a: string, b: string)
  {
    Lower(a) == Lower(b)
  }

  /** Two strings are equal up to case when they have the same length and the same letters up to case. */
  lemma EqualsIgnoreCaseMeans(a: string, b: string)
    ensures EqualsIgnoreCase(a, b) <==> |a| == |b| && forall j :: 0 <= j < |a| ==> LowerChar(a[j]) == LowerChar(b[j])
  {
    LowerAt(a);
    LowerAt(b);
  }

  /** `is_valid_tag`: a known name, an attribute only where permitted, and one where required. */
  predicate IsValidTag(tag: string, hasAttr: bool)
  {
    var lc := Lower(tag);
    lc in AllTags
    && (!hasAttr || lc in AttrPermitted)
    && (hasAttr || lc !in AttrRequired)
  }

  /** `is_valid_attr`: only `list` restricts its attribute, to `1`, `a` or `*`. */
  predicate IsValidAttr(tag: string, attr: string)
  {
    !EqualsIgnoreCase(tag, "list") || attr in ListTypes
  }

  /**
   * Any attribute is valid on a tag other than `list`; on a `list`, in any
   * letter case, exactly `1`, `a` and `*` are.
   */
  lemma IsValidAttrCases(tag: string, attr: string)
    ensures !EqualsIgnoreCase(tag, "list") ==> IsValidAttr(tag, attr)
    ensures EqualsIgnoreCase(tag, "list") ==> (IsValidAttr(tag, attr) <==> attr == "1" || attr == "a" || attr == "*")
  {
  }

  /** The body of a `code` tag is preformatted: no tag opens inside it. */
  predicate IsCodeTag(tag: string)
  {
    EqualsIgnoreCase(tag, "code")
  }

  /** The tables nest: a tag that requires an attribute permits one, and a tag that permits one is known. */
  lemma TablesNest(lc: string)
    ensures lc in AttrRequired ==> lc in AttrPermitted
    ensures lc in AttrPermitted ==> lc in AllTags
  {
  }

  /**
   * `is_valid_tag` by attribute presence: with `=` the name must permit an
   * attribute; without, it must be known and not require one.
   */
  lemma IsValidTagCases(tag: string)
    ensures IsValidTag(tag, true) <==> Lower(tag) in AttrPermitted
    ensures IsValidTag(tag, false) <==> Lower(tag) in AllTags && Lower(tag) !in AttrRequired
  {
    TablesNest(Lower(tag));
  }
}

=== FILE: lexer.dfy ===
/**
 * What the scanner of BBCodeParser reads at a position of the input, as
 * functions of the input and the position: the extent of a tag name
 * (`parse_tag`), of an attribute (`parse_attr`), whether a close tag
 * starts there (`matches_close_tag`), and whether a `[` opens a tag.
 */
module Lexer {
  import opened Wrappers
  import opened Catalog

  /** The close tag a context waits for: `'[/' . $context . ']'`. */
  function CloseTagOf(context: string): (r: string)
    ensures |r| == |context| + 3 && r[0] == '['
  {
    "[/" + context + "]"
  }

  /**
   * `matches_close_tag`: the expected close tag, in any letter case, starts
   * at position k of s.
   */
  predicate MatchesCloseTag(s: string, k: int, expected: string)
  {
    0 <= k && k + |expected| <= |s| && EqualsIgnoreCase(s[k..k + |expected|], expected)
  }

  /** A close tag matches at k when each of its characters equals the one at its place from k, up to case. */
  lemma MatchesCloseTagMeans(s: string, k: int, expected: string)
    ensures MatchesCloseTag(s, k, expected) <==>
      0 <= k && k + |expected| <= |s| && forall j :: 0 <= j < |expected| ==> LowerChar(s[k + j]) == LowerChar(expected[j])
  {
    if 0 <= k && k + |expected| <= |s| {
      EqualsIgnoreCaseMeans(s[k..k + |expected|], expected);
    }
  }

  /** The end of the run of tag-name characters that starts at k. */
  function NameEnd(s: string, k: nat): (e: nat)
    requires k <= |s|
    ensures k <= e <= |s|
    decreases |s| - k
  {
    if k < |s| && IsTagChar(s[k]) then NameEnd(s, k + 1) else k
  }

  /** The name run is maximal: tag-name characters up to NameEnd, and none at it. */
  lemma {:induction false} NameEndMaximal(s: string, k: nat)
    requires k <= |s|
    ensures forall j :: k <= j < NameEnd(s, k) ==> IsTagChar(s[j])
    ensures NameEnd(s, k) == |s| || !IsTagChar(s[NameEnd(s, k)])
    decreases |s| - k
  {
    if k < |s| && IsTagChar(s[k]) {
      NameEndMaximal(s, k + 1);
    }
  }

  /** The characters that open a quoted attribute. */
  predicate IsQuote(c: char)
  {
    c == '"' || c == '\'' || c == '`'
  }

  /**
   * The first position at or after k that holds the terminal or a newline,
   * or the end of s.
   */
  function ScanUntil(s: string, k: nat, terminal: char): (e: nat)
    requires k <= |s|
    ensures k <= e <= |s|
    decreases |s| - k
  {
    if k < |s| && s[k] != terminal && s[k] != '\n' then ScanUntil(s, k + 1, terminal) else k
  }

  /** ScanUntil stops at the first terminal or newline, and nowhere before. */
  lemma {:induction false} ScanUntilStops(s: string, k: nat, terminal: char)
    requires k <= |s|
    ensures forall j :: k <= j < ScanUntil(s, k, terminal) ==> s[j] != terminal && s[j] != '\n'
    ensures ScanUntil(s, k, terminal) < |s| ==>
      s[ScanUntil(s, k, terminal)] == terminal || s[ScanUntil(s, k, terminal)] == '\n'
    decreases |s| - k
  {
    if k < |s| && s[k] != terminal && s[k] != '\n' {
      ScanUntilStops(s, k + 1, terminal);
    }
  }

  /**
   * Where `parse_attr` stops when the attribute starts at k (just after
   * the `=`). An unquoted attribute runs up to `]`, a newline or the end;
   * a quoted one runs up to its closing quote, which it includes, or up to
   * a newline or the end when that quote is missing.
   */
  function AttrEnd(s: string, k: nat): (e: nat)
    requires k <= |s|
    ensures k <= e <= |s|
    ensures k < |s| && IsQuote(s[k]) ==> k < e
  {
    if k < |s| && IsQuote(s[k]) then
      var j := ScanUntil(s, k + 1, s[k]);
      if j < |s| && s[j] == s[k] then j + 1 else j
    else
      ScanUntil(s, k, ']')
  }

  /**
   * The extent of an attribute. A quoted one either ends with its closing
   * quote, holding neither that quote nor a newline between the two, or,
   * when the closing quote is missing, runs without either up to a newline
   * or the end. An unquoted one holds neither `]` nor a newline, and stops
   * at one of them or at the end.
   */
  lemma AttrEndExtent(s: string, k: nat)
    requires k <= |s|
    ensures var e := AttrEnd(s, k);
      k < |s| && IsQuote(s[k]) ==>
        || (k < e - 1 && s[e - 1] == s[k] && forall j :: k < j < e - 1 ==> s[j] != s[k] && s[j] != '\n')
        || ((e == |s| || s[e] == '\n') && forall j :: k < j < e ==> s[j] != s[k] && s[j] != '\n')
    ensures var e := AttrEnd(s, k);
      !(k < |s| && IsQuote(s[k])) ==>
        (forall j :: k <= j < e ==> s[j] != ']' && s[j] != '\n') && (e == |s| || s[e] == ']' || s[e] == '\n')
  {
    if k < |s| && IsQuote(s[k]) {
      ScanUntilStops(s, k + 1, s[k]);
    } else {
      ScanUntilStops(s, k, ']');
    }
  }

  /** The name read after the `[` at position k. */
  function TagName(s: string, k: nat): string
    requires k < |s|
  {
    s[k + 1..NameEnd(s, k + 1)]
  }

  /**
   * The attribute `parse_tag` reads after the `[` at position k: present
   * only when an `=` follows the name and the name may carry an attribute.
   */
  function TagAttr(s: string, k: nat): Option<string>
    requires k < |s|
  {
    var n := NameEnd(s, k + 1);
    if n < |s| && s[n] == '=' && IsValidTag(TagName(s, k), true) then Some(s[n + 1..AttrEnd(s, n + 1)])
    else None
  }

  /** Where `parse_tag` stands after reading the name and the attribute. */
  function HeadEnd(s: string, k: nat): (e: nat)
    requires k < |s|
    ensures k < e <= |s|
  {
    var n := NameEnd(s, k + 1);
    if n < |s| && s[n] == '=' && IsValidTag(TagName(s, k), true) then AttrEnd(s, n + 1) else n
  }

  /**
   * Once the name passes `is_valid_tag`, an `=` after it always starts an
   * attribute, and anything else leaves the head at the end of the name.
   */
  lemma HeadCases(s: string, k: nat, n: nat, hasAttr: bool)
    requires k < |s| && n == NameEnd(s, k + 1) && n < |s|
    requires hasAttr == (s[n] == '=') && IsValidTag(TagName(s, k), hasAttr)
    ensures hasAttr ==> TagAttr(s, k) == Some(s[n + 1..AttrEnd(s, n + 1)]) && HeadEnd(s, k) == AttrEnd(s, n + 1)
    ensures !hasAttr ==> TagAttr(s, k) == None && HeadEnd(s, k) == n
  {
  }

  /**
   * The `[` at position k opens a tag: the name is followed by something,
   * the name and the presence of `=` pass `is_valid_tag`, the attribute
   * passes `is_valid_attr`, and `]` comes right after.
   */
  predicate Opens(s: string, k: nat)
    requires k < |s|
  {
    var n := NameEnd(s, k + 1);
    var name := TagName(s, k);
    var e := HeadEnd(s, k);
    && n < |s|
    && IsValidTag(name, s[n] == '=')
    && (TagAttr(s, k).Some? ==> IsValidAttr(name, TagAttr(s, k).value))
    && e < |s| && s[e] == ']'
  }

  /** No `[` in s[lo..hi] opens a tag. */
  predicate NoOpens(s: string, lo: nat, hi: nat)
    requires hi <= |s|
    decreases hi - lo
  {
    hi <= lo || ((s[lo] == '[' ==> !Opens(s, lo)) && NoOpens(s, lo + 1, hi))
  }

  lemma {:induction false} NoOpensMeans(s: string, lo: nat, hi: nat)
    requires hi <= |s|
    ensures NoOpens(s, lo, hi) <==> forall p :: lo <= p < hi && s[p] == '[' ==> !Opens(s, p)
    decreases hi - lo
  {
    if lo < hi {
      NoOpensMeans(s, lo + 1, hi);
    }
  }

  /** What holds of a stretch holds of its tail. */
  lemma NoOpensSuffix(s: string, lo: nat, mid: nat, hi: nat)
    requires lo <= mid && hi <= |s| && NoOpens(s, lo, hi)
    ensures NoOpens(s, mid, hi)
  {
    NoOpensMeans(s, lo, hi);
    NoOpensMeans(s, mid, hi);
  }

  /** No close tag `closeTag` starts anywhere in s[lo..hi]. */
  predicate NoCloseIn(s: string, lo: nat, hi: nat, closeTag: string)
    decreases hi - lo
  {
    hi <= lo || (!MatchesCloseTag(s, lo, closeTag) && NoCloseIn(s, lo + 1, hi, closeTag))
  }

  lemma {:induction false} NoCloseInMeans(s: string, lo: nat, hi: nat, closeTag: string)
    ensures NoCloseIn(s, lo, hi, closeTag) <==> forall p :: lo <= p < hi ==> !MatchesCloseTag(s, p, closeTag)
    decreases hi - lo
  {
    if lo < hi {
      NoCloseInMeans(s, lo + 1, hi, closeTag);
    }
  }
}

=== FILE: parser.dfy ===
/**
 * BBCodeParser's syntax-tree builder: a recursive-descent scanner over one
 * string. The state the source keeps in static fields (the cursor, the
 * limit, the input and the pending-character buffer) is the state of one
 * parser object, created afresh for each call of BuildSyntaxTree.
 *
 * `parse_text` and `parse_tag` are proved to compute exactly ScanText and
 * ScanTag; what those guarantee is proved in the Scan module and gathered
 * for a whole message in ParseMessage.
 */
module Parser {
  import opened Wrappers
  import opened Catalog
  import opened Lexer
  import opened SyntaxTree
  import opened RawTree
  import opened Scan

  /** Two scans that leave the same tree, the same errors and the same cursor. */
  ghost predicate SameOutcome(a: TextScan, b: TextScan)
  {
    a.tree == b.tree && a.errors == b.errors && a.cursor == b.cursor
  }

  /**
   * What parsing a whole message from the start, outside any tag, gives:
   * errors are only appended, and none is added exactly when the cursor
   * stops at the end of input; the record unparses to the whole message
   * and every tag in it passed the checks; the tree is the record through
   * `dump_node`, so it is well formed, its tags pass the checks, and it
   * holds the text items in order. A message in which no `[` opens a tag
   * gives no error and the tree holding just the message's text.
   */
  lemma ParseMessage(s: string, errors: seq<string>)
    ensures var r := ScanText(s, [], errors, [], 0, None);
      && errors <= r.errors
      && (r.errors == errors <==> r.cursor == |s|)
      && Unparse(r.raw) == s[..Min(r.cursor, |s|)]
      && RawValid(r.raw)
      && r.tree == NormalizeInto([], r.raw)
      && WellFormed(r.tree) && TagsOk(r.tree) && TextOf(r.tree) == RawTextOf(r.raw)
      && (NoOpens(s, 0, |s|) ==> r.errors == errors && r.tree == TextTree(s))
  {
    var r := ScanText(s, [], errors, [], 0, None);
    ScanTextErrors(s, [], errors, [], 0, None);
    assert s[0..Min(0, |s|)] == [];
    ScanTextUnparse(s, [], errors, [], 0, 0, None);
    assert s[0..Min(r.cursor, |s|)] == s[..Min(r.cursor, |s|)];
    ScanTextValid(s, [], errors, [], 0, None);
    ScanTextTree(s, [], errors, [], 0, None);
    NormalizeKeepsShape([], r.raw);
    NormalizeKeepsTagsOk([], r.raw);
    NormalizeKeepsText([], r.raw);
    assert TextOf([]) + RawTextOf(r.raw) == RawTextOf(r.raw);
    if NoOpens(s, 0, |s|) {
      ScanTextNoOpens(s, [], errors, [], 0, None);
      assert r.cursor == |s|;
      assert NoOpens(s, 0, Min(r.cursor, |s|));
      NormalizeAllText("", r.raw);
      AllTextUnparse(r.raw);
      assert s[..|s|] == s;
      assert "" + RawTextOf(r.raw) == s;
    }
  }

  class BBCodeParser {
    /** The cursor; it can pass `limit` once an inner tag ran out of input. */
    var i: int
    /** The input and its length are fixed for the life of one parse. */
    const limit: int
    const chars: string
    /** Characters read but not yet added to the tree. */
    var buffer: string

    ghost predicate Valid()
      reads this
    {
      limit == |chars| && 0 <= i
    }

    constructor (text: string)
      ensures Valid() && chars == text && i == 0 && buffer == []
    {
      chars := text;
      i := 0;
      limit := |text|;
      buffer := [];
    }

    /** `get_string_buffer`: take the pending characters and empty the buffer. */
    method GetStringBuffer() returns (s: string)
      modifies this`buffer
      ensures s == old(buffer) && buffer == []
    {
      s := buffer;
      buffer := [];
    }

    /** `dump_string_buffer`: add the pending characters, if any, to the tree as text. */
    method DumpStringBuffer(tree: seq<Node>) returns (tree': seq<Node>)
      modifies this`buffer
      ensures buffer == [] && tree' == Flush(tree, old(buffer))
      ensures TextOf(tree') == TextOf(tree) + old(buffer)
    {
      tree' := tree;
      if buffer != [] {
        var s := buffer;
        buffer := [];
        tree' := DumpString(tree', s);
      }
    }

    /**
     * `parse_attr`: with the cursor on `=`, read the attribute. The result
     * is exactly the characters passed over, quotes included, and the
     * cursor stops where AttrEnd says.
     */
    method ParseAttr() returns (attr: string)
      requires Valid() && buffer == [] && i < limit && chars[i] == '='
      modifies this`i, this`buffer
      ensures Valid() && buffer == []
      ensures i == AttrEnd(chars, old(i) + 1) && attr == chars[old(i) + 1..i]
    {
      i := i + 1;
      ghost var start := i;
      var terminal := ']';
      var quoted := false;
      if i < limit && IsQuote(chars[i]) {
        terminal := chars[i];
        i := i + 1;
        quoted := true;
        buffer := buffer + [terminal];
      }
      assert buffer == chars[start..i];
      ghost var bodyStart := i;
      ReadAttrBody(terminal);
      SliceJoin(chars, start, bodyStart, i);
      if quoted && i < limit && chars[i] == terminal {
        SliceSnoc(chars, start, i);
        buffer := buffer + [chars[i]];
        i := i + 1;
      }
      attr := GetStringBuffer();
    }

    /**
     * The loop of `parse_attr`: add characters to the buffer up to the
     * terminal, a newline or the end of input.
     */
    method ReadAttrBody(terminal: char)
      requires Valid() && i <= limit
      modifies this`i, this`buffer
      ensures Valid() && i == ScanUntil(chars, old(i), terminal)
      ensures buffer == old(buffer) + chars[old(i)..i]
    {
      ghost var start := i;
      while i < limit && chars[i] != terminal
        invariant start <= i <= limit
        invariant buffer == old(buffer) + chars[start..i]
        invariant ScanUntil(chars, start, terminal) == ScanUntil(chars, i, terminal)
        decreases limit - i
      {
        if chars[i] == '\n' {
          break;
        }
        SliceSnoc(chars, start, i);
        buffer := buffer + [chars[i]];
        i := i + 1;
      }
    }

    /**
     * The name loop of `parse_tag`: gather tag-name characters and take
     * them from the buffer. The cursor stops where NameEnd says.
     */
    method ParseTagName() returns (tag: string)
      requires Valid() && buffer == [] && i <= limit
      modifies this`i, this`buffer
      ensures Valid() && buffer == []
      ensures i == NameEnd(chars, old(i)) && tag == chars[old(i)..i]
    {
      ghost var start := i;
      while i < limit && IsTagChar(chars[i])
        invariant start <= i <= limit
        invariant buffer == chars[start..i]
        invariant NameEnd(chars, start) == NameEnd(chars, i)
        decreases limit - i
      {
        buffer := buffer + [chars[i]];
        i := i + 1;
      }
      tag := GetStringBuffer();
    }

    /**
     * The optional attribute of `parse_tag`: with the cursor just past an
     * accepted name, read the attribute when `=` follows. The result and
     * the cursor are what TagAttr and HeadEnd say.
     */
    method ParseTagAttr(tag: string, ghost k: nat) returns (attr: Option<string>)
      requires Valid() && buffer == [] && k < i < limit
      requires i == NameEnd(chars, k + 1) && tag == TagName(chars, k) && IsValidTag(tag, chars[i] == '=')
      modifies this`i, this`buffer
      ensures Valid() && buffer == []
      ensures attr == TagAttr(chars, k) && i == HeadEnd(chars, k)
    {
      var hasAttr := chars[i] == '=';
      ghost var n := i;
      HeadCases(chars, k, n, hasAttr);
      attr := None;
      if hasAttr {
        var a := ParseAttr();
        attr := Some(a);
      }
    }

    /**
     * `parse_tag`: with the cursor on a `[`, read a tag name and an
     * optional attribute; when they do not make a tag give them back as
     * text, otherwise parse the body and add the tag node. It computes
     * ScanTag.
     */
    method ParseTag(tree: seq<Node>, errors: seq<string>, context: Option<string>)
      returns (tree': seq<Node>, errors': seq<string>)
      requires Valid() && buffer == [] && i + 2 < limit && chars[i] == '['
      modifies this`i, this`buffer
      decreases limit - i, 0
      ensures Valid() && buffer == []
      ensures var r := ScanTag(chars, tree, errors, old(i), context);
        tree' == r.tree && errors' == r.errors && i == r.cursor
    {
      ghost var k := i;
      i := i + 1;
      var tag := ParseTagName();
      assert tag == TagName(chars, k) && i == NameEnd(chars, k + 1);

      if i >= limit || !IsValidTag(tag, chars[i] == '=') {
        tree' := DumpString(tree, "[" + tag);
        errors' := errors;
        assert ScanTag(chars, tree, errors, k, context) == TagScan(tree', errors, i, RawText("[" + tag)) by {
          ScanTagNameRefused(chars, tree, errors, k, context);
        }
        return;
      }

      var attr := ParseTagAttr(tag, k);

      if attr.Some? && !IsValidAttr(tag, attr.value) {
        tree' := DumpString(tree, "[" + tag + "=" + attr.value);
        errors' := errors;
        assert ScanTag(chars, tree, errors, k, context) == TagScan(tree', errors, i, RawText("[" + tag + "=" + attr.value)) by {
          AttrMarkupSome("[" + tag, attr.value);
          ScanTagHeadRefused(chars, tree, errors, k, context);
        }
        return;
      }

      if i >= limit || chars[i] != ']' {
        tree' := DumpString(tree, "[" + tag + AttrMarkup(attr));
        errors' := errors;
        assert ScanTag(chars, tree, errors, k, context) == TagScan(tree', errors, i, RawText("[" + tag + AttrMarkup(attr))) by {
          ScanTagHeadRefused(chars, tree, errors, k, context);
        }
        return;
      }

      assert ScanTag(chars, tree, errors, k, context) == OpenTag(chars, tree, errors, tag, attr, i) by {
        ScanTagOpened(chars, tree, errors, k, context);
      }
      tree', errors' := ParseOpenTag(tree, errors, tag, attr);
    }

    /**
     * The rest of `parse_tag` once the head is accepted and the cursor is
     * on the `]` after it: consume it, parse the body in the tag's context,
     * add the tag node, and step over the close tag by its length. It
     * computes OpenTag.
     */
    method ParseOpenTag(tree: seq<Node>, errors: seq<string>, tag: string, attr: Option<string>)
      returns (tree': seq<Node>, errors': seq<string>)
      requires Valid() && buffer == [] && i < limit && chars[i] == ']'
      modifies this`i, this`buffer
      decreases limit - i, 2
      ensures Valid() && buffer == []
      ensures var r := OpenTag(chars, tree, errors, tag, attr, old(i));
        tree' == r.tree && errors' == r.errors && i == r.cursor
    {
      i := i + 1;
      var children;
      children, errors' := ParseText([], errors, Some(tag));
      tree' := DumpNode(tree, Tag(tag, attr, children));
      // the close tag is stepped over by its length, also when the input
      // ran out first, which leaves the cursor past the limit
      i := i + |tag| + 3;
    }

    /**
     * `parse_text`: gather characters until a `[` that is not followed by
     * `/` (then parse a tag), the close tag of the context (then stop in
     * front of it), or the end of input (then record a missing close tag
     * when inside a context). Inside `code` no tag is opened. It computes
     * ScanText.
     */
    method ParseText(tree: seq<Node>, errors: seq<string>, context: Option<string>)
      returns (tree': seq<Node>, errors': seq<string>)
      requires Valid() && buffer == []
      modifies this`i, this`buffer
      decreases limit - i, 1
      ensures Valid() && buffer == []
      ensures var r := ScanText(chars, tree, errors, [], old(i), context);
        tree' == r.tree && errors' == r.errors && i == r.cursor
    {
      var closeTag := if context.Some? then CloseTagOf(context.value) else "";
      var preformatted := context.Some? && IsCodeTag(context.value);
      ghost var start := i;
      tree' := tree;
      errors' := errors;
      while i < limit
        invariant Valid() && start <= i
        invariant SameOutcome(ScanText(chars, tree', errors', buffer, i, context),
                              ScanText(chars, tree, errors, [], start, context))
        decreases limit - i
      {
        var c := chars[i];
        if c == '[' && i + 2 < limit {
          if !preformatted && chars[i + 1] != '/' {
            tree' := DumpStringBuffer(tree');
            tree', errors' := ParseTag(tree', errors', context);
            continue;
          } else if context.Some? && MatchesCloseTag(chars, i, closeTag) {
            tree' := DumpStringBuffer(tree');
            return;
          }
        }
        buffer := buffer + [c];
        i := i + 1;
      }
      tree' := DumpStringBuffer(tree');
      if context.Some? {
        errors' := errors' + [MissingCloseTagError(context.value)];
      }
    }

    /**
     * `buildSyntaxTree`: trim the text; without BBCode, or without both
     * `[` and `]`, the tree is that text as one node. Otherwise parse it
     * from the start, outside any tag: the tree comes back only when no
     * error was recorded (ParseMessage says what it then is).
     */
    static method BuildSyntaxTree(text: string, errors: seq<string>, bbcodeEnabled: bool, trim: string -> string)
      returns (tree: seq<Node>, errors': seq<string>)
      ensures var s := trim(text);
        !bbcodeEnabled || '[' !in s || ']' !in s ==> tree == [Text(s)] && errors' == errors
      ensures var s := trim(text);
        bbcodeEnabled && '[' in s && ']' in s ==>
          var r := ScanText(s, [], errors, [], 0, None);
          && errors' == r.errors
          && tree == (if errors' == [] then r.tree else [])
          && errors <= errors'
          && (errors' == [] ==> WellFormed(tree) && TagsOk(tree) && TextOf(tree) == RawTextOf(r.raw))
          && (NoOpens(s, 0, |s|) ==> errors' == errors && (errors == [] ==> tree == [Text(s)]))
    {
      var s := trim(text);
      if !bbcodeEnabled || '[' !in s || ']' !in s {
        tree := [Text(s)];
        errors' := errors;
        return;
      }
      var parser := new BBCodeParser(s);
      var t;
      t, errors' := parser.ParseText([], errors, None);
      tree := if errors' == [] then t else [];
      ParseMessage(s, errors);
      assert s != "";
    }
  }
}

=== FILE: raw_tree.dfy ===
/**
 * What a parse consumed, before `dump_node` shapes it: every flushed run
 * of text and every refunded bracket as a text item, and every opened tag
 * with the close tag exactly as it stood in the input (empty when the
 * input ended first). Unparsing such a record gives back the input
 * character for character; folding it through `dump_node` gives the tree.
 */
module RawTree {
  import opened Wrappers
  import opened Catalog
  import opened Lexer
  import opened SyntaxTree

  datatype RawNode =
    | RawText(text: string)
    | RawTag(name: string, attr: Option<string>, children: seq<RawNode>, close: string)

  /** The `=attr` part of an open tag, as it was read. */
  function AttrMarkup(attr: Option<string>): string
  {
    if attr.Some? then "=" + attr.value else ""
  }

  /** A head followed by `=` and an attribute is the head followed by its markup. */
  lemma AttrMarkupSome(head: string, a: string)
    ensures head + "=" + a == head + AttrMarkup(Some(a))
  {
    assert head + "=" + a == head + ("=" + a);
  }

  /** The input characters a record stands for. */
  ghost function Unparse(rs: seq<RawNode>): string
    decreases rs
  {
    if rs == [] then "" else UnparseNode(rs[0]) + Unparse(rs[1..])
  }

  ghost function UnparseNode(r: RawNode): string
    decreases r
  {
    match r
    case RawText(s) => s
    case RawTag(name, attr, ch, close) => "[" + name + AttrMarkup(attr) + "]" + Unparse(ch) + close
  }

  /** The text items of a record in order, markup left out. */
  ghost function RawTextOf(rs: seq<RawNode>): string
    decreases rs
  {
    if rs == [] then "" else RawNodeText(rs[0]) + RawTextOf(rs[1..])
  }

  ghost function RawNodeText(r: RawNode): string
    decreases r
  {
    match r
    case RawText(s) => s
    case RawTag(_, _, ch, _) => RawTextOf(ch)
  }

  ghost predicate AllRawText(rs: seq<RawNode>)
  {
    forall k :: 0 <= k < |rs| ==> rs[k].RawText?
  }

  /**
   * Every opened tag passed the parser's checks, a `code` body holds only
   * text, and a close tag, when one was consumed, is the tag's own close
   * tag in some letter case.
   */
  ghost predicate RawValid(rs: seq<RawNode>)
    decreases rs
  {
    forall k :: 0 <= k < |rs| ==> RawNodeValid(rs[k])
  }

  ghost predicate RawNodeValid(r: RawNode)
    decreases r
  {
    match r
    case RawText(_) => true
    case RawTag(name, attr, ch, close) =>
      && IsValidTag(name, attr.Some?)
      && (attr.Some? ==> IsValidAttr(name, attr.value))
      && (IsCodeTag(name) ==> AllRawText(ch))
      && (close == "" || EqualsIgnoreCase(close, CloseTagOf(name)))
      && RawValid(ch)
  }

  /** Feed a record, item by item, through `dump_node` into a tree; children first. */
  ghost function NormalizeInto(tree: seq<Node>, rs: seq<RawNode>): seq<Node>
    decreases rs
  {
    if rs == [] then tree else NormalizeInto(DumpNode(tree, NormalizeNode(rs[0])), rs[1..])
  }

  ghost function NormalizeNode(r: RawNode): Node
    decreases r
  {
    match r
    case RawText(s) => Text(s)
    case RawTag(name, attr, ch, _) => Tag(name, attr, NormalizeInto([], ch))
  }

  /** Unparsing distributes over the concatenation of records. */
  lemma {:induction false} UnparseConcat(a: seq<RawNode>, b: seq<RawNode>)
    ensures Unparse(a + b) == Unparse(a) + Unparse(b)
    decreases a
  {
    if a == [] {
      assert a + b == b;
    } else {
      var head, rest := UnparseNode(a[0]), Unparse(a[1..]);
      assert (a + b)[0] == a[0] && (a + b)[1..] == a[1..] + b;
      assert Unparse(a + b) == head + Unparse(a[1..] + b);
      UnparseConcat(a[1..], b);
      assert head + (rest + Unparse(b)) == (head + rest) + Unparse(b);
    }
  }

  /** So does taking the text items. */
  lemma {:induction false} RawTextOfConcat(a: seq<RawNode>, b: seq<RawNode>)
    ensures RawTextOf(a + b) == RawTextOf(a) + RawTextOf(b)
    decreases a
  {
    if a == [] {
      assert a + b == b;
    } else {
      assert (a + b)[0] == a[0] && (a + b)[1..] == a[1..] + b;
      RawTextOfConcat(a[1..], b);
      calc {
        RawTextOf(a + b);
        RawNodeText(a[0]) + RawTextOf(a[1..] + b);
        RawNodeText(a[0]) + (RawTextOf(a[1..]) + RawTextOf(b));
        (RawNodeText(a[0]) + RawTextOf(a[1..])) + RawTextOf(b);
      }
    }
  }

  /** Feeding a + b is feeding a, then b. */
  lemma {:induction false} NormalizeConcat(tree: seq<Node>, a: seq<RawNode>, b: seq<RawNode>)
    ensures NormalizeInto(tree, a + b) == NormalizeInto(NormalizeInto(tree, a), b)
    decreases a
  {
    if a != [] {
      assert (a + b)[0] == a[0] && (a + b)[1..] == a[1..] + b;
      NormalizeConcat(DumpNode(tree, NormalizeNode(a[0])), a[1..], b);
    } else {
      assert a + b == b;
    }
  }

  lemma RawValidConcat(a: seq<RawNode>, b: seq<RawNode>)
    ensures RawValid(a) && RawValid(b) ==> RawValid(a + b)
    ensures AllRawText(a + b) <==> AllRawText(a) && AllRawText(b)
  {
    if RawValid(a) && RawValid(b) {
      forall k | 0 <= k < |a + b|
        ensures RawNodeValid((a + b)[k])
      {
        if k < |a| {
          assert (a + b)[k] == a[k];
        } else {
          assert (a + b)[k] == b[k - |a|];
        }
      }
    }
    if AllRawText(a) && AllRawText(b) {
      forall k | 0 <= k < |a + b|
        ensures (a + b)[k].RawText?
      {
        if k < |a| {
          assert (a + b)[k] == a[k];
        } else {
          assert (a + b)[k] == b[k - |a|];
        }
      }
    }
    if AllRawText(a + b) {
      forall k | 0 <= k < |a|
        ensures a[k].RawText?
      {
        assert (a + b)[k] == a[k];
      }
      forall k | 0 <= k < |b|
        ensures b[k].RawText?
      {
        assert (a + b)[|a| + k] == b[k];
      }
    }
  }

  /** Feeding a record through `dump_node` keeps a tree's shape, at every depth. */
  lemma {:induction false} NormalizeKeepsShape(tree: seq<Node>, rs: seq<RawNode>)
    requires WellFormed(tree)
    ensures WellFormed(NormalizeInto(tree, rs))
    decreases rs
  {
    if rs != [] {
      NormalizeNodeShape(rs[0]);
      DumpNodeKeepsShape(tree, NormalizeNode(rs[0]));
      NormalizeKeepsShape(DumpNode(tree, NormalizeNode(rs[0])), rs[1..]);
    }
  }

  lemma {:induction false} NormalizeNodeShape(r: RawNode)
    ensures NormalizeNode(r).Tag? ==> WellFormed(NormalizeNode(r).children)
    decreases r
  {
    match r
    case RawText(_) =>
    case RawTag(_, _, ch, _) =>
      NormalizeKeepsShape([], ch);
  }

  /**
   * Feeding a record through `dump_node` loses no text: the tree's text
   * grows by the record's text items, in order.
   */
  lemma {:induction false} NormalizeKeepsText(tree: seq<Node>, rs: seq<RawNode>)
    ensures TextOf(NormalizeInto(tree, rs)) == TextOf(tree) + RawTextOf(rs)
    decreases rs
  {
    if rs != [] {
      NormalizeNodeText(rs[0]);
      NormalizeKeepsText(DumpNode(tree, NormalizeNode(rs[0])), rs[1..]);
    }
  }

  lemma {:induction false} NormalizeNodeText(r: RawNode)
    ensures NodeText(NormalizeNode(r)) == RawNodeText(r)
    decreases r
  {
    match r
    case RawText(_) =>
    case RawTag(_, _, ch, _) =>
      NormalizeKeepsText([], ch);
  }

  /** The tree holding just the text p: empty when p is. */
  function TextTree(p: string): seq<Node>
  {
    if p == "" then [] else [Text(p)]
  }

  /** The tail of a record of text items holds text items only. */
  lemma AllRawTextTail(rs: seq<RawNode>)
    requires rs != [] && AllRawText(rs)
    ensures rs[0].RawText? && AllRawText(rs[1..])
  {
    var rest := rs[1..];
    forall k | 0 <= k < |rest| ensures rest[k].RawText? {
      assert rest[k] == rs[k + 1];
    }
  }

  /**
   * A record of text items only, fed into a tree that is at most one text
   * node, leaves one text node holding all of the text.
   */
  lemma {:induction false} NormalizeAllText(p: string, rs: seq<RawNode>)
    requires AllRawText(rs)
    ensures NormalizeInto(TextTree(p), rs) == TextTree(p + RawTextOf(rs))
    decreases rs
  {
    if rs == [] {
      assert p + "" == p;
    } else {
      AllRawTextTail(rs);
      var t := rs[0].text;
      DumpTextTree(p, t);
      NormalizeAllText(p + t, rs[1..]);
      assert p + t + RawTextOf(rs[1..]) == p + (t + RawTextOf(rs[1..]));
    }
  }

  /** Unparsing a record of text items only is its text. */
  lemma {:induction false} AllTextUnparse(rs: seq<RawNode>)
    requires AllRawText(rs)
    ensures Unparse(rs) == RawTextOf(rs)
    decreases rs
  {
    if rs != [] {
      AllRawTextTail(rs);
      AllTextUnparse(rs[1..]);
    }
  }

  /** Appending text to a tree of at most one text node leaves at most one text node. */
  lemma DumpTextTree(p: string, t: string)
    ensures DumpNode(TextTree(p), Text(t)) == TextTree(p + t)
  {
    if t == "" {
      assert p + t == p;
    } else if p == "" {
      assert p + t == t;
    }
  }

  /**
   * Feeding a record whose tags passed the parser's checks gives a tree
   * whose tags pass them: in particular every `code` node that survives
   * holds exactly one text node.
   */
  lemma {:induction false} NormalizeKeepsTagsOk(tree: seq<Node>, rs: seq<RawNode>)
    requires RawValid(rs) && TagsOk(tree)
    ensures TagsOk(NormalizeInto(tree, rs))
    decreases rs
  {
    if rs != [] {
      var rest := rs[1..];
      assert RawValid(rest) by {
        forall k | 0 <= k < |rest| ensures RawNodeValid(rest[k]) {
          assert rest[k] == rs[k + 1];
        }
      }
      assert RawNodeValid(rs[0]);
      NormalizeNodeTagsOk(rs[0]);
      DumpNodeKeepsTagsOk(tree, NormalizeNode(rs[0]));
      NormalizeKeepsTagsOk(DumpNode(tree, NormalizeNode(rs[0])), rest);
    }
  }

  lemma {:induction false} NormalizeNodeTagsOk(r: RawNode)
    requires RawNodeValid(r)
    ensures NormalizeNode(r).Tag? && NormalizeNode(r).children != [] ==> NodeTagsOk(NormalizeNode(r))
    decreases r
  {
    match r
    case RawText(_) =>
    case RawTag(name, attr, ch, _) =>
      NormalizeKeepsTagsOk([], ch);
      if IsCodeTag(name) {
        NormalizeAllText("", ch);
        assert "" + RawTextOf(ch) == RawTextOf(ch);
      }
  }
}

=== FILE: render.dfy ===
/**
 * The rendering rules of BBCodeParser that turn a syntax tree into HTML:
 * the dispatch over nodes (`generate_node_code`, `generate_code`), the
 * fixed open and close HTML of the simple tags, the list and code boxes,
 * and the two URL helpers `prepend_protocol` and `safe_truncate_url`.
 * The host helpers these call (escaping, trimming, the text, image and
 * link renderers, the base URL) are parameters.
 */
module Render {
  import opened Wrappers
  import opened Catalog
  import opened SyntaxTree

  /**
   * The helpers the renderers call but this model does not define:
   * `pun_htmlspecialchars`, `pun_trim($s, "\n\r")`, `generate_text` on a
   * text node's text, `generate_img_tag`, `generate_url_tag`, `unquote`,
   * and the language string `$lang_common['wrote']`.
   */
  datatype Host = Host(
    escape: string -> string,
    trimNewlines: string -> string,
    text: string -> string,
    img: Node -> string,
    url: (string, Node) -> string,
    unquote: string -> string,
    wrote: string)

  // ---------------------------------------------------------------------
  // prepend_protocol

  predicate EndsWith(s: string, x: string)
  {
    |x| <= |s| && s[|s| - |x|..] == x
  }

  /** `strpos($s, $p) === 0`. */
  predicate StartsWith(s: string, p: string)
  {
    |p| <= |s| && s[..|p|] == p
  }

  /** The characters `prepend_protocol` rewrites: a space and the three quotes. */
  predicate IsUrlUnsafe(c: char)
  {
    c == ' ' || c == '\'' || c == '`' || c == '"'
  }

  function SanitizeChar(c: char): string
  {
    if c == ' ' then "%20" else if IsUrlUnsafe(c) then "" else [c]
  }

  /**
   * The `str_replace` of `prepend_protocol`: a space becomes `%20` and the
   * quotes `'`, `` ` `` and `"` are removed. The four replacements run one
   * after another over the whole string, but none of them produces a
   * character a later one looks for, so they act character by character.
   */
  function SanitizeUrl(url: string): (r: string)
    ensures forall c :: c in r ==> !IsUrlUnsafe(c)
    decreases |url|
  {
    if url == [] then [] else SanitizeChar(url[0]) + SanitizeUrl(url[1..])
  }

  predicate IsSchemeChar(c: char)
  {
    'a' <= c <= 'z' || '0' <= c <= '9'
  }

  /** The first n characters are scheme characters and `://` follows them. */
  predicate SchemeAt(u: string, n: nat)
  {
    n + 3 <= |u| && (forall j :: 0 <= j < n ==> IsSchemeChar(u[j])) && u[n..n + 3] == "://"
  }

  /** `preg_match('#^([a-z0-9]{3,6})://#', $u)`: lower-case only, no `i` flag. */
  predicate HasScheme(u: string)
  {
    SchemeAt(u, 3) || SchemeAt(u, 4) || SchemeAt(u, 5) || SchemeAt(u, 6)
  }

  /**
   * `prepend_protocol` as written: the URL is cleaned first, but the
   * prefix rules test the URL as it came in. `protocol` stands for
   * `get_current_protocol()` and `baseUrl` for `get_base_url(true)`.
   */
  function PrependProtocolAsWritten(url: string, tag: string, protocol: string, baseUrl: string): (r: string)
    ensures EndsWith(r, SanitizeUrl(url))
  {
    var full := SanitizeUrl(url);
    if tag == "email" then "mailto:" + full
    else if StartsWith(url, "www.") then "http://" + full
    else if StartsWith(url, "ftp.") then "ftp://" + full
    else if StartsWith(url, "//") then protocol + ":" + full
    else if StartsWith(url, "/") then baseUrl + full
    else if !HasScheme(url) then "http://" + full
    else full
  }

  /**
   * A quoted link attribute such as `[url="http://x.org"]` reaches
   * `prepend_protocol` with its quotes: they are removed from the result,
   * but the scheme test sees the leading quote, fails, and a second
   * `http://` is put in front. The corrected rules leave the link alone.
   */
  lemma PrependProtocolDoublesScheme(inner: string, protocol: string, baseUrl: string)
    requires HasScheme(inner) && forall c :: c in inner ==> !IsUrlUnsafe(c)
    ensures PrependProtocolAsWritten("\"" + inner + "\"", "url", protocol, baseUrl) == "http://" + inner
    ensures PrependProtocol("\"" + inner + "\"", "url", protocol, baseUrl) == inner
  {
    var url := "\"" + inner + "\"";
    assert SanitizeUrl(url) == inner by {
      assert url == "\"" + (inner + "\"");
      SanitizeConcat("\"", inner + "\"");
      SanitizeConcat(inner, "\"");
      SanitizeClean(inner);
      assert SanitizeUrl("\"") == "";
    }
    assert url[0] == '"';
    assert !StartsWith(url, "www.") && !StartsWith(url, "ftp.") && !StartsWith(url, "/");
    assert !HasScheme(url);
    SchemeIsNoPrefix(inner);
  }

  /**
   * `prepend_protocol` with the prefix rules tested on the cleaned URL,
   * so that the quotes an attribute may carry do not hide its scheme.
   * The rest of the model uses this one.
   */
  function PrependProtocol(url: string, tag: string, protocol: string, baseUrl: string): (r: string)
    ensures EndsWith(r, SanitizeUrl(url))
  {
    var full := SanitizeUrl(url);
    if tag == "email" then "mailto:" + full
    else if StartsWith(full, "www.") then "http://" + full
    else if StartsWith(full, "ftp.") then "ftp://" + full
    else if StartsWith(full, "//") then protocol + ":" + full
    else if StartsWith(full, "/") then baseUrl + full
    else if !HasScheme(full) then "http://" + full
    else full
  }

  /** Cleaning distributes over concatenation. */
  lemma {:induction false} SanitizeConcat(a: string, b: string)
    ensures SanitizeUrl(a + b) == SanitizeUrl(a) + SanitizeUrl(b)
    decreases |a|
  {
    if a == [] {
      assert a + b == b;
    } else {
      assert (a + b)[0] == a[0] && (a + b)[1..] == a[1..] + b;
      SanitizeConcat(a[1..], b);
    }
  }

  /** A URL with no space and no quote is left as it is by the cleaning. */
  lemma {:induction false} SanitizeClean(url: string)
    requires forall c :: c in url ==> !IsUrlUnsafe(c)
    ensures SanitizeUrl(url) == url
    decreases |url|
  {
    if url != [] {
      assert url[0] in url;
      forall c | c in url[1..] ensures !IsUrlUnsafe(c) {
        assert c in url;
      }
      SanitizeClean(url[1..]);
      assert url == [url[0]] + url[1..];
    }
  }

  /** Cleaning twice is cleaning once. */
  lemma SanitizeIdempotent(url: string)
    ensures SanitizeUrl(SanitizeUrl(url)) == SanitizeUrl(url)
  {
    SanitizeClean(SanitizeUrl(url));
  }

  /** On a URL without spaces or quotes the written and the corrected rules agree. */
  lemma PrependProtocolAgrees(url: string, tag: string, protocol: string, baseUrl: string)
    requires forall c :: c in url ==> !IsUrlUnsafe(c)
    ensures PrependProtocolAsWritten(url, tag, protocol, baseUrl) == PrependProtocol(url, tag, protocol, baseUrl)
  {
    SanitizeClean(url);
  }

  /** A scheme of 3 to 6 lower-case letters or digits, as the scheme test accepts. */
  predicate IsScheme(p: string)
  {
    3 <= |p| <= 6 && forall j :: 0 <= j < |p| ==> IsSchemeChar(p[j])
  }

  /** A prefix with a scheme keeps it whatever follows. */
  lemma HasSchemeAppend(u: string, v: string)
    requires HasScheme(u)
    ensures HasScheme(u + v)
  {
    if SchemeAt(u, 3) {
      SchemeAtAppend(u, v, 3);
    } else if SchemeAt(u, 4) {
      SchemeAtAppend(u, v, 4);
    } else if SchemeAt(u, 5) {
      SchemeAtAppend(u, v, 5);
    } else {
      SchemeAtAppend(u, v, 6);
    }
  }

  lemma SchemeAtAppend(u: string, v: string, n: nat)
    requires SchemeAt(u, n)
    ensures SchemeAt(u + v, n)
  {
    assert (u + v)[n..n + 3] == u[n..n + 3];
    assert forall j :: 0 <= j < n ==> (u + v)[j] == u[j];
  }

  /**
   * Every link but an e-mail one comes out absolute, with a scheme the
   * test accepts, provided the current protocol is such a scheme and the
   * base URL carries one.
   */
  lemma PrependProtocolAbsolute(url: string, tag: string, protocol: string, baseUrl: string)
    requires tag != "email" && IsScheme(protocol) && HasScheme(baseUrl)
    ensures HasScheme(PrependProtocol(url, tag, protocol, baseUrl))
  {
    var full := SanitizeUrl(url);
    FixedSchemes(full);
    if StartsWith(full, "//") {
      RelativeScheme(protocol, full);
    } else if StartsWith(full, "/") {
      HasSchemeAppend(baseUrl, full);
    }
  }

  /** The two fixed prefixes `prepend_protocol` may add are schemes. */
  lemma FixedSchemes(rest: string)
    ensures HasScheme("http://" + rest) && HasScheme("ftp://" + rest)
  {
    PrefixScheme("http", rest);
    assert "http" + "://" + rest == "http://" + rest;
    PrefixScheme("ftp", rest);
    assert "ftp" + "://" + rest == "ftp://" + rest;
  }

  /** A protocol-relative URL gets the scheme of the page. */
  lemma RelativeScheme(protocol: string, full: string)
    requires IsScheme(protocol) && StartsWith(full, "//")
    ensures HasScheme(protocol + ":" + full)
  {
    assert full == "//" + full[2..];
    PrefixScheme(protocol, full[2..]);
    assert protocol + ":" + full == protocol + "://" + full[2..];
  }

  /** A scheme followed by `://` is what the scheme test accepts. */
  lemma PrefixScheme(p: string, rest: string)
    requires IsScheme(p)
    ensures HasScheme(p + "://" + rest)
  {
    var u := p + "://" + rest;
    assert u[|p|..|p| + 3] == "://";
    assert forall j :: 0 <= j < |p| ==> u[j] == p[j];
    assert SchemeAt(u, |p|);
  }

  /** Something with a scheme is not taken for `www.`, `ftp.` or a relative URL. */
  lemma SchemeIsNoPrefix(u: string)
    requires HasScheme(u)
    ensures !StartsWith(u, "www.") && !StartsWith(u, "ftp.") && !StartsWith(u, "/") && !StartsWith(u, "//")
  {
    assert u[0] != '/';
    assert u[3] != '.' by {
      if SchemeAt(u, 3) {
        assert u[3..6][0] == u[3];
      }
    }
  }

  /** With a clean protocol and base URL, the result holds no space and no quote. */
  lemma PrependProtocolClean(url: string, tag: string, protocol: string, baseUrl: string)
    requires forall c :: c in protocol ==> !IsUrlUnsafe(c)
    requires forall c :: c in baseUrl ==> !IsUrlUnsafe(c)
    ensures forall c :: c in PrependProtocol(url, tag, protocol, baseUrl) ==> !IsUrlUnsafe(c)
  {
    var full := SanitizeUrl(url);
    var r := PrependProtocol(url, tag, protocol, baseUrl);
    forall c | c in r ensures !IsUrlUnsafe(c) {
      if tag == "email" {
        assert r == "mailto:" + full;
      } else if StartsWith(full, "www.") {
        assert r == "http://" + full;
      } else if StartsWith(full, "ftp.") {
        assert r == "ftp://" + full;
      } else if StartsWith(full, "//") {
        assert r == protocol + ":" + full;
      } else if StartsWith(full, "/") {
        assert r == baseUrl + full;
      } else if !HasScheme(full) {
        assert r == "http://" + full;
      }
    }
  }

  /**
   * A link that already has a scheme is only cleaned; and so applying the
   * rules to their own result changes nothing, for every link but an
   * e-mail one, when the protocol and the base URL are clean.
   */
  lemma PrependProtocolIdempotent(url: string, tag: string, protocol: string, baseUrl: string)
    requires tag != "email" && IsScheme(protocol) && HasScheme(baseUrl)
    requires forall c :: c in baseUrl ==> !IsUrlUnsafe(c)
    ensures var r := PrependProtocol(url, tag, protocol, baseUrl);
      PrependProtocol(r, tag, protocol, baseUrl) == r
  {
    var r := PrependProtocol(url, tag, protocol, baseUrl);
    PrependProtocolAbsolute(url, tag, protocol, baseUrl);
    forall c | c in protocol ensures !IsUrlUnsafe(c) {
      var j :| 0 <= j < |protocol| && protocol[j] == c;
      assert IsSchemeChar(protocol[j]);
    }
    PrependProtocolClean(url, tag, protocol, baseUrl);
    SanitizeClean(r);
    SchemeIsNoPrefix(r);
  }

  // ---------------------------------------------------------------------
  // safe_truncate_url

  /** The text put between the head and the tail of a shortened URL: space, ellipsis, space. */
  const Ellipsis: string := " \U{2026} "

  /**
   * `safe_truncate_url` before its escaping: a URL of more than 55
   * characters is shortened to its first 39 characters, the ellipsis and
   * its last 10 characters, 52 in all; a shorter one is kept.
   */
  function TruncateUrl(url: string): (r: string)
    ensures |r| <= 55
    ensures |url| <= 55 ==> r == url
    ensures |url| > 55 ==> |r| == 52 && r[..39] == url[..39] && r[39..42] == Ellipsis && r[42..] == url[|url| - 10..]
  {
    if |url| > 55 then url[..39] + Ellipsis + url[|url| - 10..] else url
  }

  /**
   * `safe_truncate_url`: the shortened URL, escaped by the host. A URL of
   * at most 55 characters is only escaped; a longer one keeps its first 39
   * and last 10 characters around the ellipsis.
   */
  function SafeTruncateUrl(url: string, escape: string -> string): (r: string)
    ensures |url| <= 55 ==> r == escape(url)
    ensures |url| > 55 ==> r == escape(url[..39] + Ellipsis + url[|url| - 10..])
  {
    escape(TruncateUrl(url))
  }

  /** A shortened URL is short enough to be kept as it is. */
  lemma TruncateUrlIdempotent(url: string)
    ensures TruncateUrl(TruncateUrl(url)) == TruncateUrl(url)
  {
  }

  // ---------------------------------------------------------------------
  // generate_open_tag, generate_close_tag

  /** The case labels of the `switch` in `generate_open_tag` and `generate_close_tag`. */
  datatype SimpleTag = Quote | Bold | Italic | Underline | Strike | InlineCode | Del | Ins | Emphasis | Colour | Heading

  /** The case a lower-cased tag name selects, if any. */
  function SimpleTagOf(lc: string): Option<SimpleTag>
  {
    if lc == "quote" then Some(Quote)
    else if lc == "b" then Some(Bold)
    else if lc == "i" then Some(Italic)
    else if lc == "u" then Some(Underline)
    else if lc == "s" then Some(Strike)
    else if lc == "c" then Some(InlineCode)
    else if lc == "del" then Some(Del)
    else if lc == "ins" then Some(Ins)
    else if lc == "em" then Some(Emphasis)
    else if lc == "color" || lc == "colour" then Some(Colour)
    else if lc == "h" then Some(Heading)
    else None
  }

  /** The tags that open a block: their HTML closes the paragraph and opens a new one after. */
  predicate IsBlock(t: SimpleTag)
  {
    t == Quote || t == Heading
  }

  /** The HTML element an inline tag is rendered as. */
  function InlineElement(t: SimpleTag): string
    requires !IsBlock(t)
  {
    match t
    case Bold => "strong"
    case Italic => "em"
    case Emphasis => "em"
    case Underline => "span"
    case Strike => "span"
    case Colour => "span"
    case InlineCode => "code"
    case Del => "del"
    case Ins => "ins"
  }

  /** An HTML start tag of element e with the attribute text a. */
  function ElementOpen(e: string, a: string): (r: string)
    ensures StartsWith(r, "<" + e)
  {
    StartsWithPrefix("<" + e, a + ">");
    assert "<" + e + a + ">" == ("<" + e) + (a + ">");
    "<" + e + a + ">"
  }

  /** The HTML end tag of element e. */
  function ElementClose(e: string): string
  {
    "</" + e + ">"
  }

  /** The HTML `generate_open_tag` writes for a case of its switch. */
  function OpenHtml(t: SimpleTag, attr: Option<string>, h: Host): string
  {
    var safe := if attr.Some? then h.escape(attr.value) else "";
    match t
    case Quote =>
      if attr.None? then "</p>" + "<div class=\"quotebox\"><blockquote><div><p>"
      else "</p>" + "<div class=\"quotebox\"><cite>" + h.unquote(safe) + " " + h.wrote + "</cite><blockquote><div><p>"
    case Bold => ElementOpen("strong", "")
    case Italic => ElementOpen("em", "")
    case Underline => ElementOpen("span", " class=\"bbu\"")
    case Strike => ElementOpen("span", " class=\"bbs\"")
    case InlineCode => ElementOpen("code", " class=\"code\"")
    case Del => ElementOpen("del", "")
    case Ins => ElementOpen("ins", "")
    case Emphasis => ElementOpen("em", "")
    case Colour => ElementOpen("span", " style=\"color: " + safe + ";\"")
    case Heading => "</p>" + "<h5>"
  }

  /** The HTML `generate_close_tag` writes for a case of its switch. */
  function CloseHtml(t: SimpleTag): string
  {
    match t
    case Quote => "</p></div></blockquote></div>" + "<p>"
    case Bold => ElementClose("strong")
    case Italic => ElementClose("em")
    case Underline => ElementClose("span")
    case Strike => ElementClose("span")
    case InlineCode => ElementClose("code")
    case Del => ElementClose("del")
    case Ins => ElementClose("ins")
    case Emphasis => ElementClose("em")
    case Colour => ElementClose("span")
    case Heading => "</h5>" + "<p>"
  }

  /**
   * `generate_open_tag` for a lower-cased tag name. The attribute is
   * escaped first; a quote with an attribute cites it, after `unquote`; a
   * name the switch does not list gets PHP's `null`, which concatenates
   * as the empty string. A block tag closes the paragraph first; an
   * inline tag opens its element.
   */
  function OpenTagHtml(lc: string, attr: Option<string>, h: Host): (r: string)
    ensures SimpleTagOf(lc).None? ==> r == ""
    ensures SimpleTagOf(lc).Some? && IsBlock(SimpleTagOf(lc).value) ==> StartsWith(r, "</p>")
    ensures SimpleTagOf(lc).Some? && !IsBlock(SimpleTagOf(lc).value) ==>
      StartsWith(r, "<" + InlineElement(SimpleTagOf(lc).value))
  {
    if SimpleTagOf(lc).None? then ""
    else
      var t := SimpleTagOf(lc).value;
      if IsBlock(t) then BlockPairs(t, attr, h); OpenHtml(t, attr, h)
      else InlinePairs(t, attr, h); OpenHtml(t, attr, h)
  }

  /**
   * `generate_close_tag` for a lower-cased tag name: a block tag reopens
   * the paragraph, an inline tag closes the element its open tag opened,
   * and a name the switch does not list gets nothing.
   */
  function CloseTagHtml(lc: string): (r: string)
    ensures SimpleTagOf(lc).None? ==> r == ""
    ensures SimpleTagOf(lc).Some? && IsBlock(SimpleTagOf(lc).value) ==> EndsWith(r, "<p>")
    ensures SimpleTagOf(lc).Some? && !IsBlock(SimpleTagOf(lc).value) ==>
      r == ElementClose(InlineElement(SimpleTagOf(lc).value))
  {
    if SimpleTagOf(lc).None? then ""
    else
      var t := SimpleTagOf(lc).value;
      if IsBlock(t) then BlockCloses(t); CloseHtml(t)
      else CloseHtml(t)
  }

  /** A string starts with what is put before it. */
  lemma StartsWithPrefix(p: string, b: string)
    ensures StartsWith(p + b, p)
  {
    assert (p + b)[..|p|] == p;
  }

  /** A string ends with what is put after it. */
  lemma EndsWithSuffix(a: string, p: string)
    ensures EndsWith(a + p, p)
  {
    assert (a + p)[|a + p| - |p|..] == p;
  }

  /** A quote, cited or not, closes the paragraph before it. */
  lemma QuoteOpensBlock(attr: Option<string>, h: Host)
    ensures StartsWith(OpenHtml(Quote, attr, h), "</p>")
  {
    if attr.Some? {
      var safe := h.escape(attr.value);
      var b := "<div class=\"quotebox\"><cite>" + h.unquote(safe) + " " + h.wrote + "</cite><blockquote><div><p>";
      StartsWithPrefix("</p>", b);
      assert OpenHtml(Quote, attr, h) == "</p>" + b;
    } else {
      StartsWithPrefix("</p>", "<div class=\"quotebox\"><blockquote><div><p>");
    }
  }

  /**
   * A block tag closes the paragraph before it and reopens one after its
   * close tag, so that block HTML never sits inside a `<p>`.
   */
  lemma BlockPairs(t: SimpleTag, attr: Option<string>, h: Host)
    requires IsBlock(t)
    ensures StartsWith(OpenHtml(t, attr, h), "</p>") && EndsWith(CloseHtml(t), "<p>")
  {
    if t == Quote {
      QuoteOpensBlock(attr, h);
    } else {
      StartsWithPrefix("</p>", "<h5>");
    }
    BlockCloses(t);
  }

  /** The close tag of a block reopens the paragraph. */
  lemma BlockCloses(t: SimpleTag)
    requires IsBlock(t)
    ensures EndsWith(CloseHtml(t), "<p>")
  {
    if t == Quote {
      EndsWithSuffix("</p></div></blockquote></div>", "<p>");
    } else {
      EndsWithSuffix("</h5>", "<p>");
    }
  }

  /** An inline tag opens and closes the same element, whatever its attribute. */
  lemma InlinePairs(t: SimpleTag, attr: Option<string>, h: Host)
    requires !IsBlock(t)
    ensures StartsWith(OpenHtml(t, attr, h), "<" + InlineElement(t)) && CloseHtml(t) == ElementClose(InlineElement(t))
  {
  }

  /** The tags `generate_node_code` hands to `generate_url_tag`. */
  const UrlTags: seq<string> := ["url", "topic", "post", "forum", "user", "email"]

  /** The tags `generate_node_code` sends to their own renderers. */
  predicate IsDispatched(lc: string)
  {
    lc == "img" || lc == "code" || lc in UrlTags || lc == "list"
  }

  /**
   * Every other catalog tag but `*` is a case of the switch; a `*` outside
   * a list gets no HTML of its own.
   */
  lemma SimpleTagsCovered(lc: string)
    requires lc in AllTags && !IsDispatched(lc)
    ensures lc != "*" <==> SimpleTagOf(lc).Some?
  {
  }

  // ---------------------------------------------------------------------
  // node_interior_as_text, generate_code_tag

  /**
   * `node_interior_as_text`: the text of the first child. A node without
   * children gives the empty string, and so does a first child that is a
   * tag, whose missing `text` property PHP reads as `null`. Either way the
   * result is where the node's text starts.
   */
  function NodeInteriorAsText(n: Node): (r: string)
    ensures r <= NodeText(n)
  {
    if n.Text? || n.children == [] || n.children[0].Tag? then ""
    else TextOfStartsWithFirst(n.children); n.children[0].text
  }

  /** Inside a `code` tag the parser leaves one text node, so the interior is the whole text. */
  lemma CodeInteriorIsText(n: Node)
    requires n.Tag? && NodeTagsOk(n) && IsCodeTag(n.tag)
    ensures NodeInteriorAsText(n) == NodeText(n)
  {
    var ch := n.children;
    assert |ch| == 1 && ch[0].Text?;
    assert ch[..0] == [];
    assert TextOf(ch) == TextOf(ch[..0]) + NodeText(ch[0]);
  }

  /** `substr_count($s, "\n")`. */
  function CountNewlines(s: string): nat
    decreases |s|
  {
    if s == [] then 0 else CountNewlines(s[..|s| - 1]) + (if s[|s| - 1] == '\n' then 1 else 0)
  }

  /** The count is the number of newline characters in the string, wherever they stand. */
  lemma {:induction false} CountNewlinesIsMultiplicity(s: string)
    ensures CountNewlines(s) == multiset(s)['\n']
    decreases |s|
  {
    if s != [] {
      CountNewlinesIsMultiplicity(s[..|s| - 1]);
      assert s == s[..|s| - 1] + [s[|s| - 1]];
    }
  }

  /** Counting newlines distributes over concatenation. */
  lemma CountNewlinesAppend(a: string, b: string)
    ensures CountNewlines(a + b) == CountNewlines(a) + CountNewlines(b)
  {
    CountNewlinesIsMultiplicity(a);
    CountNewlinesIsMultiplicity(b);
    CountNewlinesIsMultiplicity(a + b);
  }

  const CodeBoxHead := "</p>" + "<div class=\"codebox\"><pre"
  const VScroll := " class=\"vscroll\""
  const CodeBoxTail := "</code></pre></div>" + "<p>"

  /** The code box around already escaped code; more than 28 lines make it scroll. */
  function CodeBox(code: string): string
  {
    CodeBoxHead + (if CountNewlines(code) > 28 then VScroll else "") + "><code>" + code + CodeBoxTail
  }

  /**
   * The box scrolls exactly when the code has more than 28 newlines, and
   * the code stands unchanged right before the closing markup.
   */
  lemma CodeBoxShape(code: string)
    ensures CountNewlines(code) > 28 ==> StartsWith(CodeBox(code), CodeBoxHead + VScroll + "><code>")
    ensures CountNewlines(code) <= 28 ==> StartsWith(CodeBox(code), CodeBoxHead + "><code>")
    ensures EndsWith(CodeBox(code), code + CodeBoxTail)
  {
    var mid := if CountNewlines(code) > 28 then VScroll else "";
    assert CodeBox(code) == (CodeBoxHead + mid + "><code>") + (code + CodeBoxTail);
    StartsWithPrefix(CodeBoxHead + mid + "><code>", code + CodeBoxTail);
    EndsWithSuffix(CodeBoxHead + mid + "><code>", code + CodeBoxTail);
    if mid == "" {
      assert CodeBoxHead + mid == CodeBoxHead;
    }
  }

  /** A code box closes the paragraph before it and opens one after it. */
  lemma CodeBoxIsBlock(code: string)
    ensures StartsWith(CodeBox(code), "</p>") && EndsWith(CodeBox(code), "<p>")
  {
    var mid := if CountNewlines(code) > 28 then VScroll else "";
    var body := "<div class=\"codebox\"><pre" + mid + "><code>" + code + "</code></pre></div>";
    assert CodeBox(code) == "</p>" + (body + "<p>");
    StartsWithPrefix("</p>", body + "<p>");
    assert CodeBox(code) == ("</p>" + body) + "<p>";
    EndsWithSuffix("</p>" + body, "<p>");
  }

  /**
   * `generate_code_tag`: the interior, trimmed of newlines and escaped, in
   * a code box. The box is a block, scrolls exactly when the code has more
   * than 28 newlines, and shows the code unchanged before its closing
   * markup.
   */
  function CodeTagHtml(n: Node, h: Host): (r: string)
    ensures StartsWith(r, "</p>") && EndsWith(r, "<p>")
    ensures var code := h.escape(h.trimNewlines(NodeInteriorAsText(n)));
      && (CountNewlines(code) > 28 ==> StartsWith(r, CodeBoxHead + VScroll + "><code>"))
      && (CountNewlines(code) <= 28 ==> StartsWith(r, CodeBoxHead + "><code>"))
      && EndsWith(r, code + CodeBoxTail)
  {
    var code := h.escape(h.trimNewlines(NodeInteriorAsText(n)));
    CodeBoxShape(code);
    CodeBoxIsBlock(code);
    CodeBox(code)
  }

  /** A `code` tag the parser built shows its whole text. */
  lemma CodeTagShowsText(n: Node, h: Host)
    requires n.Tag? && NodeTagsOk(n) && IsCodeTag(n.tag)
    ensures CodeTagHtml(n, h) == CodeBox(h.escape(h.trimNewlines(NodeText(n))))
  {
    CodeInteriorIsText(n);
  }

  // ---------------------------------------------------------------------
  // generate_list_tag

  /** The three list styles of `generate_list_tag`. */
  datatype ListKind = Decimal | Alpha | Bullet

  /** The style an attribute selects; no attribute means `*`, and any value but `1` and `a` a bullet list. */
  function ListKindOf(attr: Option<string>): ListKind
  {
    var kind := if attr.None? then "*" else attr.value;
    if kind == "1" then Decimal else if kind == "a" then Alpha else Bullet
  }

  /** The attribute value that names a style. */
  function ListTypeName(k: ListKind): (r: string)
    ensures r in ListTypes
  {
    match k
    case Decimal => "1"
    case Alpha => "a"
    case Bullet => "*"
  }

  /**
   * The attribute values `is_valid_attr` lets through for a `list` and the
   * three styles correspond one to one.
   */
  lemma ListKindRoundTrip(k: ListKind, t: string)
    ensures ListKindOf(Some(ListTypeName(k))) == k
    ensures t in ListTypes ==> ListTypeName(ListKindOf(Some(t))) == t
  {
  }

  /** The markup around the items of a list of the given style. */
  function ListWrap(k: ListKind, inner: string): string
  {
    match k
    case Decimal => "</p>" + "<ol class=\"decimal\">" + inner + "</ol>" + "<p>"
    case Alpha => "</p>" + "<ol class=\"alpha\">" + inner + "</ol>" + "<p>"
    case Bullet => "</p>" + "<ul>" + inner + "</ul>" + "<p>"
  }

  /** A list closes the paragraph before it and opens one after it. */
  lemma ListWrapIsBlock(k: ListKind, inner: string)
    ensures StartsWith(ListWrap(k, inner), "</p>") && EndsWith(ListWrap(k, inner), "<p>")
  {
    var open := match k case Decimal => "<ol class=\"decimal\">" case Alpha => "<ol class=\"alpha\">" case Bullet => "<ul>";
    var close := match k case Decimal => "</ol>" case Alpha => "</ol>" case Bullet => "</ul>";
    assert ListWrap(k, inner) == "</p>" + (open + inner + close + "<p>");
    StartsWithPrefix("</p>", open + inner + close + "<p>");
    assert ListWrap(k, inner) == ("</p>" + open + inner + close) + "<p>";
    EndsWithSuffix("</p>" + open + inner + close, "<p>");
  }

  // ---------------------------------------------------------------------
  // generate_node_code, generate_code

  /** The tags whose HTML is a block. */
  const BlockTags: seq<string> := ["quote", "h", "code", "list"]

  /** What an open HTML starts with and a close HTML ends with survives what is put between them. */
  lemma Enclosed(open: string, inner: string, close: string)
    ensures StartsWith(open, "</p>") ==> StartsWith(open + inner + close, "</p>")
    ensures EndsWith(close, "<p>") ==> EndsWith(open + inner + close, "<p>")
  {
    if StartsWith(open, "</p>") {
      assert (open + inner + close)[..4] == open[..4];
    }
    if EndsWith(close, "<p>") {
      var s := open + inner + close;
      assert s[|s| - 3..] == close[|close| - 3..];
    }
  }

  /**
   * `implode('', $parts)`: the parts one after another.
   */
  function Concat(parts: seq<string>): string
    decreases |parts|
  {
    if parts == [] then "" else Concat(parts[..|parts| - 1]) + parts[|parts| - 1]
  }

  /**
   * `generate_code`: the HTML of the nodes of a tree, one after another;
   * an empty tree gives nothing and a tree of one node that node's HTML.
   */
  function CodeOf(ts: seq<Node>, h: Host): (r: string)
    ensures ts == [] ==> r == ""
    ensures |ts| == 1 ==> r == NodeCode(ts[0], h)
    decreases ts, 0
  {
    if ts == [] then "" else CodeOf(ts[..|ts| - 1], h) + NodeCode(ts[|ts| - 1], h)
  }

  /**
   * `generate_node_code`: a text node goes to `generate_text`; a tag, by
   * its lower-cased name, to the image, code, link or list renderer, and
   * any other tag to its open HTML, the HTML of its children and its close
   * HTML. A quote, a heading, a code box and a list are blocks: their
   * HTML closes the paragraph before them and opens one after them.
   */
  function NodeCode(n: Node, h: Host): (r: string)
    ensures n.Tag? && Lower(n.tag) in BlockTags ==> StartsWith(r, "</p>") && EndsWith(r, "<p>")
    decreases n, 2
  {
    match n
    case Text(s) => h.text(s)
    case Tag(tag, attr, ch) =>
      var lc := Lower(tag);
      if lc == "img" then h.img(n)
      else if lc == "code" then CodeTagHtml(n, h)
      else if lc in UrlTags then h.url(lc, n)
      else if lc == "list" then ListTagHtml(n, h)
      else
        var open, inner, close := OpenTagHtml(lc, attr, h), CodeOf(ch, h), CloseTagHtml(lc);
        Enclosed(open, inner, close); open + inner + close
  }

  /** What `generate_list_tag` makes of one item: a `*` tag gives its children, anything else itself. */
  function ItemCode(item: Node, h: Host): string
    decreases item, 3
  {
    if item.Tag? && item.tag == "*" then CodeOf(item.children, h) else NodeCode(item, h)
  }

  /** The items of a list, each in `<li><p>` … `</p></li>`. */
  function ListItems(items: seq<Node>, h: Host): string
    decreases items, 0
  {
    if items == [] then ""
    else ListItems(items[..|items| - 1], h) + "<li><p>" + ItemCode(items[|items| - 1], h) + "</p></li>"
  }

  /** `generate_list_tag`: the items in the markup of the list's style, a block. */
  function ListTagHtml(n: Node, h: Host): (r: string)
    requires n.Tag?
    ensures StartsWith(r, "</p>") && EndsWith(r, "<p>")
    decreases n, 1
  {
    ListWrapIsBlock(ListKindOf(n.attribute), ListItems(n.children, h));
    ListWrap(ListKindOf(n.attribute), ListItems(n.children, h))
  }

  /** Adding a part adds its text at the end. */
  lemma ConcatSnoc(parts: seq<string>, p: string)
    ensures Concat(parts + [p]) == Concat(parts) + p
  {
    assert (parts + [p])[..|parts|] == parts;
  }

  /** Rendering a tree renders its pieces one after another. */
  lemma {:induction false} CodeOfAppend(a: seq<Node>, b: seq<Node>, h: Host)
    ensures CodeOf(a + b, h) == CodeOf(a, h) + CodeOf(b, h)
    decreases |b|
  {
    if b == [] {
      assert a + b == a;
    } else {
      var front := b[..|b| - 1];
      CodeOfAppend(a, front, h);
      assert (a + b)[..|a + b| - 1] == a + front;
      assert (a + b)[|a + b| - 1] == b[|b| - 1];
    }
  }

  /**
   * A checked tag that no renderer of its own takes, and that is not `*`,
   * is a case of the open/close switch: its HTML is the open HTML, its
   * children and the close HTML of that case.
   */
  lemma SimpleTagNodeCode(n: Node, h: Host)
    requires n.Tag? && NodeTagsOk(n) && !IsDispatched(Lower(n.tag)) && Lower(n.tag) != "*"
    ensures SimpleTagOf(Lower(n.tag)).Some?
    ensures var t := SimpleTagOf(Lower(n.tag)).value;
      NodeCode(n, h) == OpenHtml(t, n.attribute, h) + CodeOf(n.children, h) + CloseHtml(t)
  {
    SimpleTagsCovered(Lower(n.tag));
  }

  /** A `*` outside a list has no HTML of its own: it renders as its children. */
  lemma StarRendersChildren(n: Node, h: Host)
    requires n.Tag? && Lower(n.tag) == "*"
    ensures NodeCode(n, h) == CodeOf(n.children, h)
  {
    assert SimpleTagOf("*").None?;
    assert "" + CodeOf(n.children, h) + "" == CodeOf(n.children, h);
  }

  /** `generate_code`: each node rendered into a list of parts, then joined. */
  method GenerateCode(tree: seq<Node>, h: Host) returns (r: string)
    ensures r == CodeOf(tree, h)
    decreases tree, 0
  {
    var parts: seq<string> := [];
    for i := 0 to |tree|
      invariant |parts| == i && Concat(parts) == CodeOf(tree[..i], h)
    {
      var part := GenerateNodeCode(tree[i], h);
      ConcatSnoc(parts, part);
      assert tree[..i + 1][..i] == tree[..i];
      parts := parts + [part];
    }
    assert tree[..|tree|] == tree;
    r := Concat(parts);
  }

  /** `generate_node_code`. */
  method GenerateNodeCode(n: Node, h: Host) returns (r: string)
    ensures r == NodeCode(n, h)
    decreases n, 2
  {
    match n
    case Text(s) =>
      r := h.text(s);
    case Tag(tag, attr, ch) =>
      var lc := Lower(tag);
      if lc == "img" {
        r := h.img(n);
      } else if lc == "code" {
        r := CodeTagHtml(n, h);
      } else if lc in UrlTags {
        r := h.url(lc, n);
      } else if lc == "list" {
        r := GenerateListTag(n, h);
      } else {
        var inner := GenerateCode(ch, h);
        r := OpenTagHtml(lc, attr, h) + inner + CloseTagHtml(lc);
      }
  }

  /** The body of the loop of `generate_list_tag`: one item in `<li><p>` … `</p></li>`. */
  method GenerateListItem(item: Node, h: Host) returns (li: string)
    ensures li == "<li><p>" + ItemCode(item, h) + "</p></li>"
    decreases item, 3
  {
    var interior;
    if item.Tag? && item.tag == "*" {
      interior := GenerateCode(item.children, h);
    } else {
      interior := GenerateNodeCode(item, h);
    }
    li := "<li><p>" + interior + "</p></li>";
  }

  /** The items of a list grow by one item at a time. */
  lemma ListItemsSnoc(items: seq<Node>, i: nat, h: Host)
    requires i < |items|
    ensures ListItems(items[..i + 1], h) == ListItems(items[..i], h) + ("<li><p>" + ItemCode(items[i], h) + "</p></li>")
  {
    assert items[..i + 1][..i] == items[..i];
  }

  /** `generate_list_tag`: each item wrapped, joined, and put in the list markup. */
  method GenerateListTag(n: Node, h: Host) returns (r: string)
    requires n.Tag?
    ensures r == ListTagHtml(n, h)
    decreases n, 1
  {
    var items: seq<string> := [];
    for i := 0 to |n.children|
      invariant |items| == i && Concat(items) == ListItems(n.children[..i], h)
    {
      var li := GenerateListItem(n.children[i], h);
      ConcatSnoc(items, li);
      ListItemsSnoc(n.children, i, h);
      items := items + [li];
    }
    assert n.children[..|n.children|] == n.children;
    r := ListWrap(ListKindOf(n.attribute), Concat(items));
  }
}

=== FILE: scan.dfy ===
/**
 * What BBCodeParser's `parse_text` and `parse_tag` compute, as functions of
 * the input and the scanner's state: the tree they leave, the errors, where
 * the cursor ends, and (as a ghost) the record of what was consumed. The
 * parser's methods are proved to compute exactly these; the lemmas below
 * say what the functions guarantee.
 */
module Scan {
  import opened Wrappers
  import opened Catalog
  import opened Lexer
  import opened SyntaxTree
  import opened RawTree

  /** The error `parse_text` records when the input ends inside a tag. */
  function MissingCloseTagError(context: string): string
  {
    "missing close tag: " + CloseTagOf(context)
  }

  /** Text within `[code]` is not scanned for tags. */
  predicate IsPreformatted(context: Option<string>)
  {
    context.Some? && IsCodeTag(context.value)
  }

  function Min(a: int, b: int): int
  {
    if a <= b then a else b
  }

  /** `dump_string_buffer`: the pending characters, if any, added to the tree as text. */
  function Flush(tree: seq<Node>, pending: string): (r: seq<Node>)
    ensures TextOf(r) == TextOf(tree) + pending
  {
    if pending == [] then tree else DumpString(tree, pending)
  }

  /** The record of a flush: one text item, or nothing when nothing was pending. */
  ghost function FlushRaw(pending: string): seq<RawNode>
  {
    if pending == [] then [] else [RawText(pending)]
  }

  /** The close tag that stands at position e, or nothing when the input ends first. */
  ghost function CloseRead(s: string, e: int, tag: string): string
  {
    if 0 <= e && e + |tag| + 3 <= |s| then s[e..e + |tag| + 3] else ""
  }

  datatype TextScan = TextScan(tree: seq<Node>, errors: seq<string>, cursor: int, raw: seq<RawNode>)
  datatype TagScan = TagScan(tree: seq<Node>, errors: seq<string>, cursor: int, raw: RawNode)

  /**
   * The loop of `parse_text` from cursor i, with `pending` characters read
   * but not yet added to the tree. A `[` with two more characters after it
   * either opens a tag (outside `code`, unless `/` follows) or, inside a
   * context, may be its close tag, where the scan stops. At the end of
   * input a context records a missing close tag.
   */
  ghost function ScanText(s: string, tree: seq<Node>, errors: seq<string>, pending: string, i: int,
                          context: Option<string>): (r: TextScan)
    requires 0 <= i
    ensures i <= r.cursor
    decreases |s| - i, 1
  {
    if i >= |s| then
      TextScan(Flush(tree, pending), if context.Some? then errors + [MissingCloseTagError(context.value)] else errors,
               i, FlushRaw(pending))
    else if s[i] == '[' && i + 2 < |s| && !IsPreformatted(context) && s[i + 1] != '/' then
      var t := ScanTag(s, Flush(tree, pending), errors, i, context);
      var rest := ScanText(s, t.tree, t.errors, [], t.cursor, context);
      TextScan(rest.tree, rest.errors, rest.cursor, FlushRaw(pending) + ([t.raw] + rest.raw))
    else if s[i] == '[' && i + 2 < |s| && context.Some? && MatchesCloseTag(s, i, CloseTagOf(context.value)) then
      TextScan(Flush(tree, pending), errors, i, FlushRaw(pending))
    else
      ScanText(s, tree, errors, pending + [s[i]], i + 1, context)
  }

  /**
   * `parse_tag` with the cursor on the `[` at k: read the name and the
   * attribute; when they do not make a tag, give back what was read as
   * text; otherwise parse the body in the tag's context, add the node and
   * step over the close tag by its length.
   */
  ghost function ScanTag(s: string, tree: seq<Node>, errors: seq<string>, k: nat, context: Option<string>): (r: TagScan)
    requires k + 2 < |s| && s[k] == '['
    ensures k < r.cursor
    decreases |s| - k, 0
  {
    var n := NameEnd(s, k + 1);
    var tag := TagName(s, k);
    if n >= |s| || !IsValidTag(tag, s[n] == '=') then
      TagScan(DumpString(tree, "[" + tag), errors, n, RawText("[" + tag))
    else
      var attr := TagAttr(s, k);
      var h := HeadEnd(s, k);
      // An attribute `is_valid_attr` refuses and a missing `]` give back the same head.
      if (attr.Some? && !IsValidAttr(tag, attr.value)) || h >= |s| || s[h] != ']' then
        TagScan(DumpString(tree, "[" + tag + AttrMarkup(attr)), errors, h, RawText("[" + tag + AttrMarkup(attr)))
      else
        OpenTag(s, tree, errors, tag, attr, h)
  }

  /**
   * The rest of `parse_tag` once the head `[tag=attr` is accepted and `]`
   * stands at h: consume it, parse the body in the tag's context, add the
   * node, and step over the close tag by its length.
   */
  ghost function OpenTag(s: string, tree: seq<Node>, errors: seq<string>, tag: string, attr: Option<string>,
                         h: nat): (r: TagScan)
    requires h < |s|
    ensures h < r.cursor
    decreases |s| - h, 2
  {
    var body := ScanText(s, [], errors, [], h + 1, Some(tag));
    TagScan(DumpNode(tree, Tag(tag, attr, body.tree)), body.errors, body.cursor + |tag| + 3,
            RawTag(tag, attr, body.raw, CloseRead(s, body.cursor, tag)))
  }

  /** ScanTag when the name is refused: the `[` and the name go back as text. */
  lemma ScanTagNameRefused(s: string, tree: seq<Node>, errors: seq<string>, k: nat, context: Option<string>)
    requires k + 2 < |s| && s[k] == '['
    requires var n := NameEnd(s, k + 1); n >= |s| || !IsValidTag(TagName(s, k), s[n] == '=')
    ensures var tag := TagName(s, k);
      ScanTag(s, tree, errors, k, context)
        == TagScan(DumpString(tree, "[" + tag), errors, NameEnd(s, k + 1), RawText("[" + tag))
  {
  }

  /** ScanTag when the attribute is refused or `]` is missing: the whole head goes back as text. */
  lemma ScanTagHeadRefused(s: string, tree: seq<Node>, errors: seq<string>, k: nat, context: Option<string>)
    requires k + 2 < |s| && s[k] == '['
    requires var n := NameEnd(s, k + 1); n < |s| && IsValidTag(TagName(s, k), s[n] == '=')
    requires var attr := TagAttr(s, k); var h := HeadEnd(s, k);
      (attr.Some? && !IsValidAttr(TagName(s, k), attr.value)) || h >= |s| || s[h] != ']'
    ensures var head := "[" + TagName(s, k) + AttrMarkup(TagAttr(s, k));
      ScanTag(s, tree, errors, k, context) == TagScan(DumpString(tree, head), errors, HeadEnd(s, k), RawText(head))
  {
  }

  /** ScanTag when the head is accepted: it goes on as OpenTag. */
  lemma ScanTagOpened(s: string, tree: seq<Node>, errors: seq<string>, k: nat, context: Option<string>)
    requires k + 2 < |s| && s[k] == '['
    requires var n := NameEnd(s, k + 1); n < |s| && IsValidTag(TagName(s, k), s[n] == '=')
    requires var attr := TagAttr(s, k); var h := HeadEnd(s, k);
      !((attr.Some? && !IsValidAttr(TagName(s, k), attr.value)) || h >= |s| || s[h] != ']')
    ensures HeadEnd(s, k) < |s|
    ensures ScanTag(s, tree, errors, k, context) == OpenTag(s, tree, errors, TagName(s, k), TagAttr(s, k), HeadEnd(s, k))
  {
  }

  // ---------------------------------------------------------------------
  // Slices of the input

  lemma SliceJoin(s: string, a: nat, b: nat, c: nat)
    requires a <= b <= c <= |s|
    ensures s[a..c] == s[a..b] + s[b..c]
  {
  }

  lemma SliceSnoc(s: string, a: nat, b: nat)
    requires a <= b < |s|
    ensures s[a..b + 1] == s[a..b] + [s[b]]
  {
  }

  lemma SliceCons(s: string, a: nat, b: nat)
    requires a < b <= |s|
    ensures s[a..b] == [s[a]] + s[a + 1..b]
  {
  }

  /** The head `[tag` the scanner reads is exactly the input it stands on. */
  lemma HeadNameText(s: string, k: nat)
    requires k < |s| && s[k] == '['
    ensures s[k..NameEnd(s, k + 1)] == "[" + TagName(s, k)
  {
    SliceCons(s, k, NameEnd(s, k + 1));
  }

  /** So is the head `[tag=attr`, with the attribute when one was read. */
  lemma HeadText(s: string, k: nat)
    requires k < |s| && s[k] == '['
    ensures s[k..HeadEnd(s, k)] == "[" + TagName(s, k) + AttrMarkup(TagAttr(s, k))
  {
    var n := NameEnd(s, k + 1);
    var attr := TagAttr(s, k);
    var h := HeadEnd(s, k);
    HeadNameText(s, k);
    if attr.Some? {
      SliceJoin(s, k, n, h);
      SliceCons(s, n, h);
      assert s[n..h] == AttrMarkup(attr);
    } else {
      assert h == n;
      assert AttrMarkup(attr) == "";
    }
  }

  /**
   * An opened tag stands for its head, its body and the close tag that
   * follows the body when the input did not end first.
   */
  lemma TagRecord(s: string, k: nat, tag: string, attr: Option<string>, h: nat, ch: seq<RawNode>, bodyEnd: nat)
    requires k < h < |s| && s[k..h] == "[" + tag + AttrMarkup(attr) && s[h] == ']'
    requires h + 1 <= bodyEnd <= |s| && Unparse(ch) == s[h + 1..bodyEnd]
    requires bodyEnd < |s| ==> MatchesCloseTag(s, bodyEnd, CloseTagOf(tag))
    ensures UnparseNode(RawTag(tag, attr, ch, CloseRead(s, bodyEnd, tag))) == s[k..Min(bodyEnd + |tag| + 3, |s|)]
  {
    var close := CloseRead(s, bodyEnd, tag);
    var end := Min(bodyEnd + |tag| + 3, |s|);
    assert close == s[bodyEnd..end];
    SliceJoin(s, k, h, h + 1);
    SliceCons(s, h, h + 1);
    assert s[h..h + 1] == "]";
    SliceJoin(s, k, h + 1, bodyEnd);
    SliceJoin(s, k, bodyEnd, end);
  }

  /** What stands where the body ends is the tag's own close tag, in some letter case, or nothing. */
  lemma CloseReadMatches(s: string, e: int, tag: string)
    requires 0 <= e
    requires e < |s| ==> MatchesCloseTag(s, e, CloseTagOf(tag))
    ensures CloseRead(s, e, tag) == "" || EqualsIgnoreCase(CloseRead(s, e, tag), CloseTagOf(tag))
  {
    if e + |tag| + 3 <= |s| {
      assert e < |s|;
    }
  }

  /** A close tag starts with `[`, so it cannot start at any other character, nor too near the end. */
  lemma CloseTagNeedsBracket(s: string, p: nat, closeTag: string)
    requires |closeTag| >= 3 && closeTag[0] == '['
    requires p < |s| && (s[p] != '[' || |s| <= p + 2)
    ensures !MatchesCloseTag(s, p, closeTag)
  {
    if p + |closeTag| <= |s| {
      var w := s[p..p + |closeTag|];
      LowerHead(w);
      LowerHead(closeTag);
      assert w[0] == s[p];
    }
  }

  /** A flush records the pending text and nothing else. */
  lemma FlushRecord(tree: seq<Node>, pending: string)
    ensures NormalizeInto(tree, FlushRaw(pending)) == Flush(tree, pending)
    ensures RawValid(FlushRaw(pending)) && AllRawText(FlushRaw(pending))
    ensures Unparse(FlushRaw(pending)) == pending
  {
    if pending != [] {
      assert FlushRaw(pending)[1..] == [];
    }
  }

  // ---------------------------------------------------------------------
  // The record: what was consumed, and how it became the tree

  /** The tree `parse_text` leaves is its record fed through `dump_node`. */
  lemma {:induction false} ScanTextTree(s: string, tree: seq<Node>, errors: seq<string>, pending: string,
                                        i: int, context: Option<string>)
    requires 0 <= i
    ensures var r := ScanText(s, tree, errors, pending, i, context);
      r.tree == NormalizeInto(tree, r.raw)
    decreases |s| - i, 1
  {
    var r := ScanText(s, tree, errors, pending, i, context);
    FlushRecord(tree, pending);
    if i >= |s| {
      assert r.tree == Flush(tree, pending) && r.raw == FlushRaw(pending);
    } else if s[i] == '[' && i + 2 < |s| && !IsPreformatted(context) && s[i + 1] != '/' {
      var flushed := Flush(tree, pending);
      var t := ScanTag(s, flushed, errors, i, context);
      ScanTagTree(s, flushed, errors, i, context);
      ScanTextTree(s, t.tree, t.errors, [], t.cursor, context);
      var rest := ScanText(s, t.tree, t.errors, [], t.cursor, context);
      var tail := [t.raw] + rest.raw;
      assert r.tree == rest.tree && r.raw == FlushRaw(pending) + tail;
      assert tail[0] == t.raw && tail[1..] == rest.raw;
      NormalizeConcat(tree, FlushRaw(pending), tail);
    } else if s[i] == '[' && i + 2 < |s| && context.Some? && MatchesCloseTag(s, i, CloseTagOf(context.value)) {
      assert r.tree == Flush(tree, pending) && r.raw == FlushRaw(pending);
    } else {
      assert r == ScanText(s, tree, errors, pending + [s[i]], i + 1, context);
      ScanTextTree(s, tree, errors, pending + [s[i]], i + 1, context);
    }
  }


  /** The tree `parse_tag` leaves is its record appended by `dump_node`. */
  lemma {:induction false} ScanTagTree(s: string, tree: seq<Node>, errors: seq<string>, k: nat,
                                       context: Option<string>)
    requires k + 2 < |s| && s[k] == '['
    ensures var r := ScanTag(s, tree, errors, k, context);
      r.tree == DumpNode(tree, NormalizeNode(r.raw))
    decreases |s| - k, 0
  {
    var n := NameEnd(s, k + 1);
    var tag := TagName(s, k);
    if n < |s| && IsValidTag(tag, s[n] == '=') {
      var attr := TagAttr(s, k);
      var h := HeadEnd(s, k);
      if !(attr.Some? && !IsValidAttr(tag, attr.value)) && h < |s| && s[h] == ']' {
        OpenTagTree(s, tree, errors, tag, attr, h);
      }
    }
  }

  lemma {:induction false} OpenTagTree(s: string, tree: seq<Node>, errors: seq<string>, tag: string,
                                       attr: Option<string>, h: nat)
    requires h < |s|
    ensures var r := OpenTag(s, tree, errors, tag, attr, h);
      r.tree == DumpNode(tree, NormalizeNode(r.raw))
    decreases |s| - h, 2
  {
    ScanTextTree(s, [], errors, [], h + 1, Some(tag));
  }

  /**
   * Every tag `parse_text` opened passed the checks, a `code` body holds
   * only text, and a close tag it consumed is the tag's own.
   */
  lemma {:induction false} ScanTextValid(s: string, tree: seq<Node>, errors: seq<string>, pending: string,
                                         i: int, context: Option<string>)
    requires 0 <= i
    ensures RawValid(ScanText(s, tree, errors, pending, i, context).raw)
    decreases |s| - i, 1
  {
    var r := ScanText(s, tree, errors, pending, i, context);
    FlushRecord(tree, pending);
    if i >= |s| {
      assert r.raw == FlushRaw(pending);
    } else if s[i] == '[' && i + 2 < |s| && !IsPreformatted(context) && s[i + 1] != '/' {
      var flushed := Flush(tree, pending);
      var t := ScanTag(s, flushed, errors, i, context);
      ScanTagValid(s, flushed, errors, i, context);
      ScanTextValid(s, t.tree, t.errors, [], t.cursor, context);
      var rest := ScanText(s, t.tree, t.errors, [], t.cursor, context);
      assert r.raw == FlushRaw(pending) + ([t.raw] + rest.raw);
      assert RawValid([t.raw]);
      RawValidConcat([t.raw], rest.raw);
      RawValidConcat(FlushRaw(pending), [t.raw] + rest.raw);
    } else if s[i] == '[' && i + 2 < |s| && context.Some? && MatchesCloseTag(s, i, CloseTagOf(context.value)) {
      assert r.raw == FlushRaw(pending);
    } else {
      assert r == ScanText(s, tree, errors, pending + [s[i]], i + 1, context);
      ScanTextValid(s, tree, errors, pending + [s[i]], i + 1, context);
    }
  }


  lemma {:induction false} ScanTagValid(s: string, tree: seq<Node>, errors: seq<string>, k: nat,
                                        context: Option<string>)
    requires k + 2 < |s| && s[k] == '['
    ensures RawNodeValid(ScanTag(s, tree, errors, k, context).raw)
    decreases |s| - k, 0
  {
    var n := NameEnd(s, k + 1);
    var tag := TagName(s, k);
    if n < |s| && IsValidTag(tag, s[n] == '=') {
      var attr := TagAttr(s, k);
      var h := HeadEnd(s, k);
      if !(attr.Some? && !IsValidAttr(tag, attr.value)) && h < |s| && s[h] == ']' {
        assert attr.Some? <==> s[n] == '=';
        OpenTagValid(s, tree, errors, tag, attr, h);
      }
    }
  }

  lemma {:induction false} OpenTagValid(s: string, tree: seq<Node>, errors: seq<string>, tag: string,
                                        attr: Option<string>, h: nat)
    requires h < |s|
    requires IsValidTag(tag, attr.Some?) && (attr.Some? ==> IsValidAttr(tag, attr.value))
    ensures RawNodeValid(OpenTag(s, tree, errors, tag, attr, h).raw)
    decreases |s| - h, 2
  {
    var body := ScanText(s, [], errors, [], h + 1, Some(tag));
    ScanTextValid(s, [], errors, [], h + 1, Some(tag));
    ScanTextErrors(s, [], errors, [], h + 1, Some(tag));
    if IsCodeTag(tag) {
      ScanTextPreformatted(s, [], errors, [], h + 1, Some(tag));
    }
    assert body.cursor < |s| ==> MatchesCloseTag(s, body.cursor, CloseTagOf(tag));
    CloseReadMatches(s, body.cursor, tag);
    assert OpenTag(s, tree, errors, tag, attr, h).raw == RawTag(tag, attr, body.raw, CloseRead(s, body.cursor, tag));
  }

  /**
   * What `parse_text` consumed, from the start of the pending text to
   * where the cursor stops (or to the end of input), is exactly what its
   * record unparses to.
   */
  lemma {:induction false} ScanTextUnparse(s: string, tree: seq<Node>, errors: seq<string>, pending: string,
                                           bs: nat, i: int, context: Option<string>)
    requires 0 <= i && bs <= Min(i, |s|) && pending == s[bs..Min(i, |s|)]
    ensures var r := ScanText(s, tree, errors, pending, i, context);
      Unparse(r.raw) == s[bs..Min(r.cursor, |s|)]
    decreases |s| - i, 2
  {
    var r := ScanText(s, tree, errors, pending, i, context);
    if i >= |s| {
      FlushRecord(tree, pending);
      assert r.raw == FlushRaw(pending) && r.cursor == i;
    } else if s[i] == '[' && i + 2 < |s| && !IsPreformatted(context) && s[i + 1] != '/' {
      TagStepUnparse(s, tree, errors, pending, bs, i, context);
    } else if s[i] == '[' && i + 2 < |s| && context.Some? && MatchesCloseTag(s, i, CloseTagOf(context.value)) {
      FlushRecord(tree, pending);
      assert r.raw == FlushRaw(pending) && r.cursor == i;
    } else {
      assert r == ScanText(s, tree, errors, pending + [s[i]], i + 1, context);
      SliceJoin(s, bs, i, i + 1);
      assert pending + [s[i]] == s[bs..i + 1];
      ScanTextUnparse(s, tree, errors, pending + [s[i]], bs, i + 1, context);
    }
  }

  /** The step of ScanTextUnparse where a `[` is handed to `parse_tag`. */
  lemma {:induction false} TagStepUnparse(s: string, tree: seq<Node>, errors: seq<string>, pending: string,
                                          bs: nat, i: nat, context: Option<string>)
    requires bs <= i && i + 2 < |s| && pending == s[bs..i]
    requires s[i] == '[' && !IsPreformatted(context) && s[i + 1] != '/'
    ensures var r := ScanText(s, tree, errors, pending, i, context);
      Unparse(r.raw) == s[bs..Min(r.cursor, |s|)]
    decreases |s| - i, 1
  {
    FlushRecord(tree, pending);
    var flushed := Flush(tree, pending);
    var t := ScanTag(s, flushed, errors, i, context);
    ScanTagUnparse(s, flushed, errors, i, context);
    var e := Min(t.cursor, |s|);
    ScanTextUnparse(s, t.tree, t.errors, [], e, t.cursor, context);
    var rest := ScanText(s, t.tree, t.errors, [], t.cursor, context);
    var f := Min(rest.cursor, |s|);
    var tail := [t.raw] + rest.raw;
    assert tail[0] == t.raw && tail[1..] == rest.raw;
    assert Unparse(tail) == s[i..e] + s[e..f];
    UnparseConcat(FlushRaw(pending), tail);
    SliceJoin(s, i, e, f);
    SliceJoin(s, bs, i, f);
  }

  lemma {:induction false} ScanTagUnparse(s: string, tree: seq<Node>, errors: seq<string>, k: nat,
                                          context: Option<string>)
    requires k + 2 < |s| && s[k] == '['
    ensures var r := ScanTag(s, tree, errors, k, context);
      UnparseNode(r.raw) == s[k..Min(r.cursor, |s|)]
    decreases |s| - k, 0
  {
    HeadNameText(s, k);
    HeadText(s, k);
    var n := NameEnd(s, k + 1);
    var tag := TagName(s, k);
    if n < |s| && IsValidTag(tag, s[n] == '=') {
      var attr := TagAttr(s, k);
      var h := HeadEnd(s, k);
      if !(attr.Some? && !IsValidAttr(tag, attr.value)) && h < |s| && s[h] == ']' {
        OpenTagUnparse(s, tree, errors, k, tag, attr, h);
      }
    }
  }

  lemma {:induction false} OpenTagUnparse(s: string, tree: seq<Node>, errors: seq<string>, k: nat, tag: string,
                                          attr: Option<string>, h: nat)
    requires k < h < |s| && s[k..h] == "[" + tag + AttrMarkup(attr) && s[h] == ']'
    ensures var r := OpenTag(s, tree, errors, tag, attr, h);
      UnparseNode(r.raw) == s[k..Min(r.cursor, |s|)]
    decreases |s| - h, 3
  {
    var body := ScanText(s, [], errors, [], h + 1, Some(tag));
    ScanTextUnparse(s, [], errors, [], h + 1, h + 1, Some(tag));
    ScanTextErrors(s, [], errors, [], h + 1, Some(tag));
    var bodyEnd := Min(body.cursor, |s|);
    assert bodyEnd < |s| ==> MatchesCloseTag(s, bodyEnd, CloseTagOf(tag));
    TagRecord(s, k, tag, attr, h, body.raw, bodyEnd);
    assert CloseRead(s, bodyEnd, tag) == CloseRead(s, body.cursor, tag);
  }

  // ---------------------------------------------------------------------
  // Errors and where the cursor stops

  /**
   * What `parse_text` promises about errors and the cursor, started at i:
   * it only appends errors. It stops before the end of input only in front
   * of its context's close tag, having added no error. With no context it
   * runs to the end; with one, reaching the end records the missing close
   * tag last. With no context, the errors are unchanged exactly when the
   * cursor stops at the end and not past it.
   */
  ghost predicate TextErrorsOk(s: string, errors: seq<string>, i: int, context: Option<string>, r: TextScan)
  {
    && errors <= r.errors
    && (r.cursor < |s| ==>
          context.Some? && MatchesCloseTag(s, r.cursor, CloseTagOf(context.value)) && r.errors == errors)
    && (context.None? ==> |s| <= r.cursor)
    && (|s| <= r.cursor && context.Some? ==>
          errors < r.errors && r.errors[|r.errors| - 1] == MissingCloseTagError(context.value))
    && (context.None? && i <= |s| ==> (r.errors == errors <==> r.cursor == |s|))
  }

  lemma {:induction false} ScanTextErrors(s: string, tree: seq<Node>, errors: seq<string>, pending: string,
                                          i: int, context: Option<string>)
    requires 0 <= i
    ensures TextErrorsOk(s, errors, i, context, ScanText(s, tree, errors, pending, i, context))
    decreases |s| - i, 2
  {
    var r := ScanText(s, tree, errors, pending, i, context);
    if i >= |s| {
      assert r.cursor == i;
      assert r.errors == if context.Some? then errors + [MissingCloseTagError(context.value)] else errors;
    } else if s[i] == '[' && i + 2 < |s| && !IsPreformatted(context) && s[i + 1] != '/' {
      TagStepErrors(s, tree, errors, pending, i, context);
    } else if s[i] == '[' && i + 2 < |s| && context.Some? && MatchesCloseTag(s, i, CloseTagOf(context.value)) {
      assert r.errors == errors && r.cursor == i;
    } else {
      assert r == ScanText(s, tree, errors, pending + [s[i]], i + 1, context);
      ScanTextErrors(s, tree, errors, pending + [s[i]], i + 1, context);
    }
  }

  /** The step of ScanTextErrors where a `[` is handed to `parse_tag`. */
  lemma {:induction false} TagStepErrors(s: string, tree: seq<Node>, errors: seq<string>, pending: string,
                                         i: nat, context: Option<string>)
    requires i + 2 < |s| && s[i] == '[' && !IsPreformatted(context) && s[i + 1] != '/'
    ensures TextErrorsOk(s, errors, i, context, ScanText(s, tree, errors, pending, i, context))
    decreases |s| - i, 1
  {
    var r := ScanText(s, tree, errors, pending, i, context);
    var t := ScanTag(s, Flush(tree, pending), errors, i, context);
    ScanTagErrors(s, Flush(tree, pending), errors, i, context);
    ScanTextErrors(s, t.tree, t.errors, [], t.cursor, context);
    var rest := ScanText(s, t.tree, t.errors, [], t.cursor, context);
    assert r.errors == rest.errors && r.cursor == rest.cursor;
    PrefixChain(errors, t.errors, rest.errors);
    if t.cursor > |s| {
      assert rest.cursor == t.cursor;
    }
  }

  /** Prefixes chain, and a prefix is the whole exactly when it is as long. */
  lemma PrefixChain(a: seq<string>, b: seq<string>, c: seq<string>)
    requires a <= b && b <= c
    ensures a <= c && |a| <= |b| <= |c|
    ensures a == b <==> |a| == |b|
    ensures a == c <==> |a| == |c|
  {
  }

  /**
   * `parse_tag` only appends errors, and appends some exactly when the
   * cursor ends past the end of input, that is, when the tag it opened
   * was never closed.
   */
  lemma {:induction false} ScanTagErrors(s: string, tree: seq<Node>, errors: seq<string>, k: nat,
                                         context: Option<string>)
    requires k + 2 < |s| && s[k] == '['
    ensures var r := ScanTag(s, tree, errors, k, context);
      && errors <= r.errors
      && (r.errors == errors <==> r.cursor <= |s|)
    decreases |s| - k, 0
  {
    var n := NameEnd(s, k + 1);
    var tag := TagName(s, k);
    if n < |s| && IsValidTag(tag, s[n] == '=') {
      var attr := TagAttr(s, k);
      var h := HeadEnd(s, k);
      if !(attr.Some? && !IsValidAttr(tag, attr.value)) && h < |s| && s[h] == ']' {
        OpenTagErrors(s, tree, errors, tag, attr, h);
      }
    }
  }

  lemma {:induction false} OpenTagErrors(s: string, tree: seq<Node>, errors: seq<string>, tag: string,
                                         attr: Option<string>, h: nat)
    requires h < |s|
    ensures var r := OpenTag(s, tree, errors, tag, attr, h);
      && errors <= r.errors
      && (r.errors == errors <==> r.cursor <= |s|)
    decreases |s| - h, 3
  {
    ScanTextErrors(s, [], errors, [], h + 1, Some(tag));
  }

  /**
   * `parse_tag` opens a tag exactly when the `[` at k opens one (Opens),
   * with the name and attribute read there; otherwise it gives back the
   * head as text, adds no error, and leaves the cursor after the head.
   */
  lemma ScanTagOpens(s: string, tree: seq<Node>, errors: seq<string>, k: nat, context: Option<string>)
    requires k + 2 < |s| && s[k] == '['
    ensures var r := ScanTag(s, tree, errors, k, context);
      && (r.raw.RawTag? <==> Opens(s, k))
      && (r.raw.RawTag? ==> r.raw.name == TagName(s, k) && r.raw.attr == TagAttr(s, k))
      && (r.raw.RawText? ==> r.cursor == HeadEnd(s, k) && r.errors == errors)
  {
  }

  // ---------------------------------------------------------------------
  // Text that opens no tag, and `code` bodies

  /**
   * Inside `code` nothing is parsed: the record is text only, the cursor
   * never passes the end of input, and no close tag of the context starts
   * before the cursor stops.
   */
  lemma {:induction false} ScanTextPreformatted(s: string, tree: seq<Node>, errors: seq<string>, pending: string,
                                                i: int, context: Option<string>)
    requires 0 <= i && IsPreformatted(context)
    ensures var r := ScanText(s, tree, errors, pending, i, context);
      && AllRawText(r.raw)
      && NoCloseIn(s, i, Min(r.cursor, |s|), CloseTagOf(context.value))
    decreases |s| - i, 1
  {
    var r := ScanText(s, tree, errors, pending, i, context);
    FlushRecord(tree, pending);
    var closeTag := CloseTagOf(context.value);
    if i >= |s| {
      assert r.raw == FlushRaw(pending) && r.cursor == i;
    } else if s[i] == '[' && i + 2 < |s| && MatchesCloseTag(s, i, closeTag) {
      assert r.raw == FlushRaw(pending) && r.cursor == i;
    } else {
      assert r == ScanText(s, tree, errors, pending + [s[i]], i + 1, context);
      if s[i] != '[' || i + 2 >= |s| {
        CloseTagNeedsBracket(s, i, closeTag);
      }
      ScanTextPreformatted(s, tree, errors, pending + [s[i]], i + 1, context);
    }
  }


  /**
   * Where no `[` opens a tag, `parse_text` only gathers text: the record
   * holds no tag and the cursor does not pass the end of input.
   */
  lemma {:induction false} ScanTextNoOpens(s: string, tree: seq<Node>, errors: seq<string>, pending: string,
                                           i: nat, context: Option<string>)
    requires i <= |s|
    ensures var r := ScanText(s, tree, errors, pending, i, context);
      NoOpens(s, i, Min(r.cursor, |s|)) ==> AllRawText(r.raw) && r.cursor <= |s|
    decreases |s| - i, 2
  {
    var r := ScanText(s, tree, errors, pending, i, context);
    FlushRecord(tree, pending);
    if i >= |s| {
      assert r.raw == FlushRaw(pending) && r.cursor == i;
    } else if s[i] == '[' && i + 2 < |s| && !IsPreformatted(context) && s[i + 1] != '/' {
      TagStepNoOpens(s, tree, errors, pending, i, context);
    } else if s[i] == '[' && i + 2 < |s| && context.Some? && MatchesCloseTag(s, i, CloseTagOf(context.value)) {
      assert r.raw == FlushRaw(pending) && r.cursor == i;
    } else {
      assert r == ScanText(s, tree, errors, pending + [s[i]], i + 1, context);
      if NoOpens(s, i, Min(r.cursor, |s|)) {
        NoOpensSuffix(s, i, i + 1, Min(r.cursor, |s|));
        ScanTextNoOpens(s, tree, errors, pending + [s[i]], i + 1, context);
      }
    }
  }

  /** The step of ScanTextNoOpens where a `[` is handed to `parse_tag`. */
  lemma {:induction false} TagStepNoOpens(s: string, tree: seq<Node>, errors: seq<string>, pending: string,
                                          i: nat, context: Option<string>)
    requires i + 2 < |s| && s[i] == '[' && !IsPreformatted(context) && s[i + 1] != '/'
    ensures var r := ScanText(s, tree, errors, pending, i, context);
      NoOpens(s, i, Min(r.cursor, |s|)) ==> AllRawText(r.raw) && r.cursor <= |s|
    decreases |s| - i, 1
  {
    var r := ScanText(s, tree, errors, pending, i, context);
    var t := ScanTag(s, Flush(tree, pending), errors, i, context);
    var rest := ScanText(s, t.tree, t.errors, [], t.cursor, context);
    assert r.raw == FlushRaw(pending) + ([t.raw] + rest.raw) && r.cursor == rest.cursor;
    if NoOpens(s, i, Min(r.cursor, |s|)) {
      FlushRecord(tree, pending);
      TagNoOpens(s, Flush(tree, pending), errors, i, context, Min(r.cursor, |s|));
      ScanTextNoOpens(s, t.tree, t.errors, [], t.cursor, context);
      RawValidConcat([t.raw], rest.raw);
      RawValidConcat(FlushRaw(pending), [t.raw] + rest.raw);
    }
  }

  /** Where the `[` at k opens no tag, `parse_tag` gives text back and stops within the input. */
  lemma TagNoOpens(s: string, tree: seq<Node>, errors: seq<string>, k: nat, context: Option<string>, hi: nat)
    requires k + 2 < |s| && s[k] == '[' && k < hi <= |s| && NoOpens(s, k, hi)
    ensures var t := ScanTag(s, tree, errors, k, context);
      t.raw.RawText? && t.cursor <= |s| && NoOpens(s, t.cursor, hi)
  {
    ScanTagOpens(s, tree, errors, k, context);
    assert !Opens(s, k);
    NoOpensSuffix(s, k, ScanTag(s, tree, errors, k, context).cursor, hi);
  }
}

=== FILE: syntax_tree.dfy ===
/**
 * The syntax tree of a message (SyntaxTreeTextNode, SyntaxTreeTagNode) and
 * `dump_node`, the one operation that adds nodes to a tree.
 */
module SyntaxTree {
  import opened Wrappers
  import opened Catalog

  /**
   * A node: literal text, or a tag with its name as written, its optional
   * attribute and its children.
   */
  datatype Node =
    | Text(text: string)
    | Tag(tag: string, attribute: Option<string>, children: seq<Node>)

  /** The literal text of a tree in document order, markup left out. */
  function TextOf(t: seq<Node>): string
    decreases t
  {
    if t == [] then "" else TextOf(t[..|t| - 1]) + NodeText(t[|t| - 1])
  }

  function NodeText(n: Node): string
    decreases n
  {
    match n
    case Text(s) => s
    case Tag(_, _, ch) => TextOf(ch)
  }

  /**
   * The shape of the trees the parser builds: no empty text node, no tag
   * without children, and no two text nodes side by side, at every level.
   */
  predicate WellFormed(t: seq<Node>)
    decreases t
  {
    && (forall k :: 0 <= k < |t| ==> NodeWellFormed(t[k]))
    && (forall k :: 0 <= k < |t| - 1 ==> !(t[k].Text? && t[k + 1].Text?))
  }

  predicate NodeWellFormed(n: Node)
    decreases n
  {
    match n
    case Text(s) => s != ""
    case Tag(_, _, ch) => ch != [] && WellFormed(ch)
  }

  /**
   * Every tag node passes the parser's checks: a catalog name with an
   * attribute only where permitted and one where required, a `list`
   * attribute that is `1`, `a` or `*`, and a `code` body that is one piece
   * of text.
   */
  predicate TagsOk(t: seq<Node>)
    decreases t
  {
    forall k :: 0 <= k < |t| ==> NodeTagsOk(t[k])
  }

  predicate NodeTagsOk(n: Node)
    decreases n
  {
    match n
    case Text(_) => true
    case Tag(name, attr, ch) =>
      && IsValidTag(name, attr.Some?)
      && (attr.Some? ==> IsValidAttr(name, attr.value))
      && (IsCodeTag(name) ==> |ch| == 1 && ch[0].Text?)
      && TagsOk(ch)
  }

  lemma TextOfAppend(t: seq<Node>, n: Node)
    ensures TextOf(t + [n]) == TextOf(t) + NodeText(n)
  {
    assert (t + [n])[..|t|] == t;
  }

  /** The text of a tree starts with the text of its first node. */
  lemma {:induction false} TextOfStartsWithFirst(t: seq<Node>)
    requires t != []
    ensures NodeText(t[0]) <= TextOf(t)
    decreases |t|
  {
    if |t| > 1 {
      TextOfStartsWithFirst(t[..|t| - 1]);
    }
  }

  /**
   * `dump_node`: add a node at the end of a tree. Empty text and tags
   * without children are dropped, and text that follows a text node is
   * merged into it; so the tree keeps its shape and its text grows by
   * exactly the node's text, and no node but the last is touched.
   */
  function DumpNode(tree: seq<Node>, node: Node): (r: seq<Node>)
    ensures TextOf(r) == TextOf(tree) + NodeText(node)
    ensures |tree| <= |r| <= |tree| + 1
  {
    match node
    case Text(s) =>
      if s == "" then tree
      else if tree != [] && tree[|tree| - 1].Text? then
        var last := tree[|tree| - 1];
        assert TextOf(tree) == TextOf(tree[..|tree| - 1]) + last.text;
        TextOfAppend(tree[..|tree| - 1], Text(last.text + s));
        tree[..|tree| - 1] + [Text(last.text + s)]
      else
        TextOfAppend(tree, node);
        tree + [node]
    case Tag(_, _, ch) =>
      if ch == [] then tree
      else
        TextOfAppend(tree, node);
        tree + [node]
  }

  /**
   * `dump_node` keeps a tree's shape: what it appends is never empty, and
   * text after text is merged.
   */
  lemma DumpNodeKeepsShape(tree: seq<Node>, node: Node)
    requires WellFormed(tree) && (node.Tag? ==> WellFormed(node.children))
    ensures WellFormed(DumpNode(tree, node))
  {
    var r := DumpNode(tree, node);
    if (node.Text? && node.text == "") || (node.Tag? && node.children == []) {
      assert r == tree;
    } else if node.Text? && tree != [] && tree[|tree| - 1].Text? {
      var m := |tree| - 1;
      assert r == tree[..m] + [Text(tree[m].text + node.text)];
      forall k | 0 <= k < |r|
        ensures NodeWellFormed(r[k])
      {
        if k < m {
          assert r[k] == tree[k];
        }
      }
      forall k | 0 <= k < |r| - 1
        ensures !(r[k].Text? && r[k + 1].Text?)
      {
        assert r[k] == tree[k];
        if k + 1 < m {
          assert r[k + 1] == tree[k + 1];
        }
      }
    } else {
      assert r == tree + [node];
      forall k | 0 <= k < |r|
        ensures NodeWellFormed(r[k])
      {
        if k < |tree| {
          assert r[k] == tree[k];
        }
      }
      forall k | 0 <= k < |r| - 1
        ensures !(r[k].Text? && r[k + 1].Text?)
      {
        assert r[k] == tree[k];
        if k + 1 < |tree| {
          assert r[k + 1] == tree[k + 1];
        }
      }
    }
  }

  /** `dump_node` keeps every tag of the tree passing the checks, and touches no node but the last. */
  lemma DumpNodeKeepsTagsOk(tree: seq<Node>, node: Node)
    requires TagsOk(tree) && (node.Tag? && node.children != [] ==> NodeTagsOk(node))
    ensures TagsOk(DumpNode(tree, node))
    ensures forall k :: 0 <= k < |tree| - 1 ==> DumpNode(tree, node)[k] == tree[k]
  {
    var r := DumpNode(tree, node);
    if (node.Text? && node.text == "") || (node.Tag? && node.children == []) {
      assert r == tree;
    } else if node.Text? && tree != [] && tree[|tree| - 1].Text? {
      var m := |tree| - 1;
      assert r == tree[..m] + [Text(tree[m].text + node.text)];
      forall k | 0 <= k < |r|
        ensures NodeTagsOk(r[k])
      {
        if k < m {
          assert r[k] == tree[k];
        }
      }
    } else {
      assert r == tree + [node];
      forall k | 0 <= k < |r|
        ensures NodeTagsOk(r[k])
      {
        if k < |tree| {
          assert r[k] == tree[k];
        }
      }
    }
  }

  /** `dump_string`: add a piece of text to a tree. */
  function DumpString(tree: seq<Node>, s: string): (r: seq<Node>)
    ensures TextOf(r) == TextOf(tree) + s
  {
    DumpNode(tree, Text(s))
  }

  /** PHP's `empty()` on a string, which holds for `""` and also for `"0"`. */
  predicate PhpEmpty(s: string)
  {
    s == "" || s == "0"
  }

  /**
   * `dump_node` as the source writes it: the test `empty($node->text)`
   * also drops a text node that is exactly `0`. The tree still keeps its
   * shape, but it loses that text.
   */
  function DumpNodeAsWritten(tree: seq<Node>, node: Node): (r: seq<Node>)
    ensures TextOf(r) == TextOf(tree) + (if node.Text? && PhpEmpty(node.text) then "" else NodeText(node))
  {
    if node.Text? && PhpEmpty(node.text) then tree else DumpNode(tree, node)
  }

  /**
   * The input `[b]x[/b]0` ends with the text `0`: the as-written append
   * drops it after the `b` node, where the corrected one keeps it. In
   * `[b]0[/b]` the body of `b` is that text: dropping it leaves `b`
   * without children, so `b` is dropped in turn and the tree is empty,
   * where the corrected append keeps both.
   */
  lemma DumpNodeAsWrittenDropsZero()
    ensures var tree := [Tag("b", None, [Text("x")])];
      && DumpNodeAsWritten(tree, Text("0")) == tree
      && TextOf(DumpNodeAsWritten(tree, Text("0"))) == "x"
      && DumpNode(tree, Text("0")) == tree + [Text("0")]
      && TextOf(DumpNode(tree, Text("0"))) == "x0"
    ensures DumpNodeAsWritten([], Tag("b", None, DumpNodeAsWritten([], Text("0")))) == []
    ensures DumpNode([], Tag("b", None, DumpNode([], Text("0")))) == [Tag("b", None, [Text("0")])]
  {
    var tree := [Tag("b", None, [Text("x")])];
    assert TextOf([Text("x")]) == "x" by {
      assert [Text("x")][..0] == [];
    }
    assert TextOf(tree) == "x" by {
      assert tree[..0] == [];
    }
  }
}

=== FILE: wrappers.dfy ===
/** The optional value the source writes as a nullable string (`?string`). */
module Wrappers {

  datatype Option<+T> = None | Some(value: T)
}
